=== FILE: README.md ===
# safe_migrations, modelled in Dafny

`safe_migrations` is a Ruby gem for ActiveRecord migrations. It adds guarded
("safe") versions of the schema statements, such as `safe_add_column` and
`safe_create_table`. Each guarded version first asks the database whether its
target is already in place. It issues the statement only when the target is
not there, so a migration can be run again without failing. The exception is
`safe_change_column`: it always issues a statement, `change_column` when the
column exists and `add_column` when it does not. The gem also teaches
ActiveRecord's command recorder how to invert most safe calls, so that a
`change` migration made of them can be rolled back. Four safe methods have
no inverse: `safe_change_column`, `safe_drop_table`, `safe_remove_reference`
and `safe_remove_check_constraint`.

This project models:

- the schema as an immutable value;
- every guarded operation as a pure function on that value;
- the recorder's inversion table;
- the way the host framework runs a migration up (calls in order) and down
  (every call inverted first, then the inverses replayed last to first).

It proves these properties:

- a skipped guard changes nothing;
- every operation keeps the schema well formed;
- every operation is idempotent;
- each creating operation, rename and nullability change that acted is
  undone by its partner;
- the algebra of the inversion table: which calls are mutual inverses, which
  are one-way, which are irreversible, and what double inversion of a rename
  or of a nullability change gives back;
- the migration from the gem's own test file, in all three scenarios: up and
  re-run, rollback, and rollback over a pre-existing table.

Files and modules:

- `outcome.dfy` (`Outcome`): `Option`, `Result` and the errors a run can
  raise.
- `schema.dfy` (`Schema`): the schema `State` holds tables, columns keyed by
  `(table, column)` with a type and a nullability flag, indexes keyed by
  `(table, column, options)` and foreign keys keyed by `(from, to, options)`.
  It also defines the well-formedness predicate `Valid`.
- `database.dfy` (`Database`): the effect of each plain DDL statement the
  guarded operations issue.
- `migration_helper.dfy` (`MigrationHelper`): the thirteen `safe_*`
  operations, the `SafeOp` call datatype with `Apply`, and the idempotence
  and round-trip lemmas.
- `command_recorder.dfy` (`CommandRecorder`): `SAFE_METHODS`,
  `SAFE_REVERSIBLE_MAP`, recorded commands, `Invert`, and the corrected
  inversion.
- `migrator.dfy` (`Migrator`): Ruby argument binding (`Decode`), up
  (`Run`), down (`Rollback`), and the scenarios from the test file.

Conventions the model fixes:

- `column_exists?`, `index_exists?`, `table_exists?` and
  `foreign_key_exists?` are set and map membership. On a missing table they
  answer false.
- Options are one opaque value. Their `null:` entry gives a column's
  nullability. The whole value is part of an index's or a foreign key's
  identity.
- Some effects are not in the gem's code but belong to the database, and the
  model fixes them as follows:
  - removing a column drops the indexes on it;
  - renaming a column carries its indexes over to the new name;
  - dropping a table drops its columns, its indexes and its own foreign
    keys; since `safe_drop_table` passes no `force: :cascade`, the drop is
    refused (`ReferencedTable`) while another table's foreign key points at
    the table, as PostgreSQL and MySQL refuse it;
  - an index on a missing column is refused (`MissingColumn`);
  - adding a column to a missing table is refused (`MissingTable`).

  These refusals are modelled as error results, not as preconditions.
- Ruby semantics are written out:
  - a short destructuring pads with `nil` (`At`);
  - `!value` follows Ruby truthiness (`Not`);
  - a trailing hash is taken to have been written as keywords
    (`Positional`, `Keywords`);
  - a `**` splat of a non-hash raises (`HashAt`);
  - a wrong argument count raises `BadArguments`.

## Model

| member | source | states |
|---|---|---|
| MigrationHelper.SafeAddColumn | lib/safe_migrations/migration_helper.rb:8-13 | If the table is missing or the column exists, the schema is unchanged. Otherwise the column exists with the given type, and its nullability comes from `null:` (default true). No other column, index, table or foreign key changes. Validity is kept. |
| MigrationHelper.SafeRemoveColumn | lib/safe_migrations/migration_helper.rb:15-17 | Acts only when both the table and the column exist; otherwise the schema is unchanged. Afterwards the column and every index on it are gone. Tables and foreign keys are unchanged. |
| MigrationHelper.SafeRenameColumn | lib/safe_migrations/migration_helper.rb:19-21 | Acts only when the old name exists and the new one does not; otherwise the schema is unchanged. Afterwards the new name carries the old definition and the old name is gone. Indexes on the old name move to the new name. Nothing else changes. |
| MigrationHelper.SafeAddIndex | lib/safe_migrations/migration_helper.rb:23-28 | Unchanged success when the table is missing or the same index exists. A missing column is refused with `MissingColumn`. Otherwise exactly that index is added and nothing else changes. |
| MigrationHelper.SafeRemoveIndex | lib/safe_migrations/migration_helper.rb:30-32 | Acts only when a matching index exists: exactly that index is removed and nothing else changes. |
| MigrationHelper.SafeAddColumnAndIndex | lib/safe_migrations/migration_helper.rb:34-37 | Adds the column, then the index, so the pair never fails. On an existing table, the column and the index exist afterwards, the index set grew by exactly that index, and no other column changes. A column it adds has the given type and its nullability comes from the column options' `null:` (default true). An existing column is left as it was. |
| MigrationHelper.SafeRemoveColumnAndIndex | lib/safe_migrations/migration_helper.rb:39-42 | Removes the index, then the column. The index never remains. On a valid schema, the column is gone and no index remains on it. |
| MigrationHelper.SafeChangeColumn | lib/safe_migrations/migration_helper.rb:44-46 | Fails exactly when both the column and its table are missing, with `MissingTable`. Otherwise the column exists with the given type. Its nullability is `null:`, else the old value for an altered column, else true for an added one. Nothing else changes. |
| MigrationHelper.SafeChangeColumnNull | lib/safe_migrations/migration_helper.rb:48-50 | Changes only an existing column's nullability and keeps its type. A missing column leaves the schema unchanged. |
| MigrationHelper.SafeCreateTable | lib/safe_migrations/migration_helper.rb:52-54 | Skipped when the table exists. Otherwise the table exists with exactly the block's columns added, and indexes and foreign keys are unchanged. |
| MigrationHelper.SafeDropTable | lib/safe_migrations/migration_helper.rb:56-58 | Unchanged success when the table is missing. Refused with `ReferencedTable` when another table's foreign key points at it. Otherwise the table, its columns, its indexes and its own foreign keys are gone, and the rest is unchanged. |
| MigrationHelper.SafeAddForeignKey | lib/safe_migrations/migration_helper.rb:60-65 | Acts only when both tables exist and no matching key does. Afterwards exactly that key is added. |
| MigrationHelper.SafeRemoveForeignKey | lib/safe_migrations/migration_helper.rb:67-69 | Acts only when both tables and the matching key exist. Afterwards exactly that key is removed. |
| MigrationHelper.Apply | lib/safe_migrations/migration_helper.rb:7-69 | A safe call keeps the schema valid. Only `safe_add_index`, `safe_change_column` and `safe_drop_table` can fail. |
| MigrationHelper.ApplyIdempotent | lib/safe_migrations/migration_helper.rb:7-69 | Repeating any safe call that succeeded changes nothing and does not fail. |
| MigrationHelper.SafeChangeColumnIdempotent | lib/safe_migrations/migration_helper.rb:44-46 | Changing a column again to the same type and options gives the same schema. |
| MigrationHelper.AddThenRemoveColumn | lib/safe_migrations/migration_helper.rb:8-17 | On a valid schema, removing a column that was just added restores the schema exactly. |
| MigrationHelper.AddThenRemoveIndex | lib/safe_migrations/migration_helper.rb:23-32 | Removing an index that was just added restores the schema exactly. |
| MigrationHelper.RenameThenRenameBack | lib/safe_migrations/migration_helper.rb:19-21 | Renaming a column and renaming it back restores the schema, including its indexes. |
| MigrationHelper.ChangeColumnNullThenBack | lib/safe_migrations/migration_helper.rb:48-50 | Flipping nullability and flipping it back restores the schema. |
| MigrationHelper.CreateThenDropTable | lib/safe_migrations/migration_helper.rb:52-58 | On a valid schema, dropping a table that was just created restores the schema exactly. |
| MigrationHelper.AddThenRemoveForeignKey | lib/safe_migrations/migration_helper.rb:60-69 | Removing a foreign key that was just added restores the schema exactly. |
| MigrationHelper.AddThenRemoveColumnAndIndex | lib/safe_migrations/migration_helper.rb:34-42 | On a valid schema, removing a column and index that were just added restores the schema exactly. |
| CommandRecorder.ReversibleMapWithinSafeMethods | lib/safe_migrations/command_recorder_extension.rb:5-39 | Every key and every value of the reversible map is a safe method. Every modelled method is listed in `SAFE_METHODS`, each once, under distinct names. |
| CommandRecorder.Invert | lib/safe_migrations/command_recorder_extension.rb:50-66 | A call inverts exactly when its method has a map entry; otherwise it fails with `Irreversible`. The inverse's method is the mapped one. Away from the two special cases, the arguments and block pass through unchanged. |
| CommandRecorder.MethodKindsPartition | lib/safe_migrations/command_recorder_extension.rb:25-39 | The methods split into add/remove pairs, one-way methods, irreversible methods, rename and change-null. A method is irreversible exactly when it has no entry. A one-way method's partner has no entry of its own. |
| CommandRecorder.InvertFailsExactlyOnIrreversible | lib/safe_migrations/command_recorder_extension.rb:25-39 | Inversion fails exactly on `safe_change_column`, `safe_drop_table`, `safe_remove_reference` and `safe_remove_check_constraint`. |
| CommandRecorder.PairedInvertTwice | lib/safe_migrations/command_recorder_extension.rb:27-34 | For the column, index, foreign-key and column-and-index pairs, inverting twice gives the call back. |
| CommandRecorder.OneWayInvertTwice | lib/safe_migrations/command_recorder_extension.rb:26-38 | Creating a table, a reference or a check constraint can be inverted, but its inverse cannot. |
| CommandRecorder.InvertRenameSwaps | lib/safe_migrations/command_recorder_extension.rb:56-60 | A rename inverts to a rename with the two column names swapped and no block. |
| CommandRecorder.RenameInvertTwice | lib/safe_migrations/command_recorder_extension.rb:56-60 | Inverting a rename twice gives it back exactly when it had three arguments and no block. |
| CommandRecorder.InvertChangeColumnNullNegates | lib/safe_migrations/command_recorder_extension.rb:62-66 | `safe_change_column_null` inverts to the same table and column with the flag negated. The default and the block are dropped. |
| CommandRecorder.ChangeColumnNullInvertTwice | lib/safe_migrations/command_recorder_extension.rb:62-66 | Double inversion keeps the table and column and restores the flag's truth value. A call that had a default never comes back unchanged. |
| Migrator.InvertCorrectedUndoesColumnAndIndex | lib/safe_migrations/command_recorder_extension.rb:33 | Any `safe_add_column_and_index` call whose arguments bind, in whatever form they were written, has a corrected inverse. That inverse binds to removing the same column with the same index options. |
| Migrator.Decode | lib/safe_migrations/migration_helper.rb:8-69 | Replaying a call of a method the helper does not define raises `UndefinedMethod`, and only those calls do. Every other failure is a bad argument list or an unsupported index removal. |
| Migrator.DecodeEncode | lib/safe_migrations/command_recorder_extension.rb:43-46 | Replaying the recorded call of any safe operation runs that very operation. |
| Migrator.Run | spec/safe_migrations_spec.rb:3-6 | Running calls up keeps the schema valid. A failure comes from a call whose arguments do not bind, or from an index addition, column change or table drop the database refuses. |
| Migrator.InvertAll | lib/safe_migrations/command_recorder_extension.rb:50-66 | Inverting a migration succeeds exactly when every call inverts, and then gives each call's inverse in order. |
| Migrator.RollbackWith | lib/safe_migrations/command_recorder_extension.rb:25-39 | An irreversible call anywhere makes the whole rollback fail. A rollback keeps the schema valid. |
| Migrator.IrreversibleRollbackTouchesNothing | lib/safe_migrations/command_recorder_extension.rb:25-39 | With an irreversible call anywhere, the rollback fails the same way on every schema, before any statement runs. |
| Migrator.CorrectionOnlyTouchesColumnAndIndex | lib/safe_migrations/command_recorder_extension.rb:25-39 | Without `safe_add_column_and_index`, the corrected rollback equals the rollback as written. |
| Migrator.InvertedCallRunsUndo | lib/safe_migrations/command_recorder_extension.rb:26-66 | For each reversible operation, replaying the inverse of its recorded call runs the operation's undo. |
| Migrator.UndoRestores | lib/safe_migrations/migration_helper.rb:8-69 | On a valid schema, an operation that acted is undone exactly by its undo. |
| Migrator.UpThenDownRestores | lib/safe_migrations/command_recorder_extension.rb:25-66 | When a reversible call acted on the way up, rolling it back restores the schema exactly. |
| Migrator.AddColumnAndIndexRollbackAsWrittenFails | lib/safe_migrations/command_recorder_extension.rb:33 | As written, rolling back any `safe_add_column_and_index` call whose arguments bind fails with a bad argument list for `safe_remove_column_and_index`. This holds in whatever form the arguments were written. |
| Migrator.UsersMigrationSteps | spec/safe_migrations_spec.rb:22-33 | The test migration runs as create `users`, then add `email`, then add the unique index. |
| Migrator.UsersRollbackSteps | spec/safe_migrations_spec.rb:53-64 | Its rollback removes the index, then the column, then drops `users`. |
| Migrator.UsersMigrationUp | spec/safe_migrations_spec.rb:35-43 | On any valid schema, the migration succeeds in the model and leaves `users`, `email` and the unique index in place. `name` exists exactly when the table was new or already had it. Every earlier column of `users` is kept. |
| Migrator.UsersMigrationAgain | spec/safe_migrations_spec.rb:44-49 | Running the migration again on its own result changes nothing. |
| Migrator.UsersMigrationDown | spec/safe_migrations_spec.rb:61-63 | Rolling the migration back fails exactly when `users` exists and another table's foreign key points at it, with `ReferencedTable`. Otherwise it leaves no `users` table and no column of it. |
| Migrator.UsersMigrationUpAgainDown | spec/safe_migrations_spec.rb:35-64 | Up, re-run and down together on any valid schema. The model has no index names (see `MigrationHelper.SafeAddIndex` under "## Left out"). The rollback succeeds exactly when no other table's foreign key points at `users`. |
| Migrator.UsersRollbackAsWritten | spec/safe_migrations_spec.rb:53-90 | The test migration has no `safe_add_column_and_index`, so rolling it back with the inversion table as written gives exactly the corrected rollback. The rollback scenarios therefore hold for the gem as written. |
| Migrator.UsersMigrationFreshRoundTrip | spec/safe_migrations_spec.rb:53-64 | Without a prior `users` table, up then down gives back the original schema. |
| Migrator.SkippedCreateStillDropsOnRollback | spec/safe_migrations_spec.rb:67-90 | When the table already exists, the create step is skipped and changes nothing, yet the rollback still drops the table. Only another table's foreign key pointing at it makes the rollback fail instead. |

## Left out

- The database connection, real DDL and introspection. The schema is an
  abstract value, and the existence checks are membership tests. On a missing
  table, `column_exists?` and `index_exists?` answer false rather than
  raising.
- The wiring in lib/safe_migrations.rb. It includes the helper into the
  adapter and installs the recorder methods, which is plumbing with no
  behaviour of its own.
- The metaprogramming (`class_eval`, `define_method`, `ruby2_keywords`).
  A `Command` value stands for what the generated recording methods store,
  and `Invert` stands for the generated and special `invert_*` methods.
- Options matching: an options hash is matched as a whole. ActiveRecord's
  `index_exists?` and `foreign_key_exists?` match a subset of options, and
  that is not modelled.
- `safe_add_reference`, `safe_remove_reference`, `safe_add_check_constraint`
  and `safe_remove_check_constraint` are recorded and inverted, but the
  helper does not define them. Replaying them gives `UndefinedMethod`.
- `safe_remove_index` without a column: removing an index by name, or with a
  nil column, gives `Unsupported`. Column arrays and expression indexes are
  not modelled either.
- `create_table` and `drop_table` options, column options beyond `null:`,
  the block's `t.timestamps` columns, and anything a `create_table` block
  does besides declaring columns.
- Row data: the default that `change_column_null` back-fills into existing
  rows, and all data a dropped column or table loses.
- Foreign-key columns: a key relates two tables; its column is not checked.
- Databases that drop a referenced table anyway, such as SQLite with foreign
  key enforcement off, are not modelled: a referenced drop is always refused.
- Transactions: a run that fails keeps no partial effect, because the model
  returns only the error. The applied-migration ledger, locking and
  concurrency are left out too.
- Error order: when several calls are irreversible, the first in recording
  order is reported.
- MigrationHelper.SafeAddIndex: the database names an index after its table
  and column alone (`index_users_on_email`). It therefore refuses a second
  index on the same column that differs only in options. The model keys
  indexes by table, column and options, and accepts that index. For the same
  reason, `Migrator.UsersMigrationUp` holds for every valid schema in the
  model. The real migration fails when `users.email` already carries an
  index with other options.
- MigrationHelper.SafeAddForeignKey: the database names a foreign key after
  its table and column alone, so it refuses a second key between the same
  tables that differs only in options. The model accepts it.
- Migrator.Decode: a hash written with braces (`safe_add_index(:users,
  :email, {unique: true})`) stays positional in Ruby 3, so a method taking
  `**options` raises ArgumentError. A `Command` does not record how a hash
  was written, and the model binds every trailing hash as keywords.
- Migrator.Decode: an argument that is not a symbol or string where a name
  or type is expected (`safe_add_column(:users, :email, nil)`) is refused as
  `BadArguments`. Ruby binds a value of any kind and runs the method.
- MigrationHelper.SafeChangeColumn: the `null:` option is the only option
  whose effect is modelled. Other column options are accepted and ignored.

## Findings

| source | as written | input that shows it | evidently intended | confidence | as-written member | corrected member |
|---|---|---|---|---|---|---|
| lib/safe_migrations/command_recorder_extension.rb:33 | The generic inverse of `safe_add_column_and_index` passes `[table, column, type, column_options, index_options]` on to `safe_remove_column_and_index(table, column, column_options = {}, index_options = {})`. The type then lands in `column_options`, and `**column_options` of a symbol raises. With both option hashes present, there is one argument too many. | Roll back `safe_add_column_and_index(:users, :email, :string)`. | Rolling back removes the index and the column that were added. | not executed | Migrator.AddColumnAndIndexRollbackAsWrittenFails | CommandRecorder.InvertCorrected |

`Migrator.Rollback` uses the corrected inversion.
`Migrator.InvertCorrectedUndoesColumnAndIndex` proves that the corrected inverse of
every call that binds undoes the same column and index.
`Migrator.UpThenDownRestores` proves that with it a `safe_add_column_and_index`
that acted is rolled back exactly. `Migrator.RollbackAsWritten`
uses the inversion table as written.

=== FILE: command_recorder.dfy ===
/**
 * `SafeMigrations::CommandRecorderExtension`: how a safe call is recorded
 * while a migration is reverted, and the table that maps each recorded call
 * to the call that undoes it.
 */
module CommandRecorder {
  import opened Outcome
  import opened Schema

  /** The safe methods the recorder knows, one per entry of `SAFE_METHODS`. */
  datatype SafeMethod =
    | SafeCreateTable
    | SafeDropTable
    | SafeAddColumn
    | SafeRemoveColumn
    | SafeRenameColumn
    | SafeAddIndex
    | SafeRemoveIndex
    | SafeAddForeignKey
    | SafeRemoveForeignKey
    | SafeAddColumnAndIndex
    | SafeRemoveColumnAndIndex
    | SafeChangeColumn
    | SafeChangeColumnNull
    | SafeAddReference
    | SafeRemoveReference
    | SafeAddCheckConstraint
    | SafeRemoveCheckConstraint

  /** The method's Ruby symbol. */
  function Symbol(m: SafeMethod): string {
    match m
    case SafeCreateTable => "safe_create_table"
    case SafeDropTable => "safe_drop_table"
    case SafeAddColumn => "safe_add_column"
    case SafeRemoveColumn => "safe_remove_column"
    case SafeRenameColumn => "safe_rename_column"
    case SafeAddIndex => "safe_add_index"
    case SafeRemoveIndex => "safe_remove_index"
    case SafeAddForeignKey => "safe_add_foreign_key"
    case SafeRemoveForeignKey => "safe_remove_foreign_key"
    case SafeAddColumnAndIndex => "safe_add_column_and_index"
    case SafeRemoveColumnAndIndex => "safe_remove_column_and_index"
    case SafeChangeColumn => "safe_change_column"
    case SafeChangeColumnNull => "safe_change_column_null"
    case SafeAddReference => "safe_add_reference"
    case SafeRemoveReference => "safe_remove_reference"
    case SafeAddCheckConstraint => "safe_add_check_constraint"
    case SafeRemoveCheckConstraint => "safe_remove_check_constraint"
  }

  /** `SAFE_METHODS`, in the order the gem lists them. */
  const SafeMethods: seq<SafeMethod> := [
    SafeCreateTable, SafeDropTable, SafeAddColumn, SafeRemoveColumn, SafeRenameColumn,
    SafeAddIndex, SafeRemoveIndex, SafeAddForeignKey, SafeRemoveForeignKey,
    SafeAddColumnAndIndex, SafeRemoveColumnAndIndex, SafeChangeColumn, SafeChangeColumnNull,
    SafeAddReference, SafeRemoveReference, SafeAddCheckConstraint, SafeRemoveCheckConstraint
  ]

  /** `SAFE_REVERSIBLE_MAP`: the method whose call undoes a recorded call. */
  const ReversibleMap: map<SafeMethod, SafeMethod> := map[
    SafeCreateTable := SafeDropTable,
    SafeAddColumn := SafeRemoveColumn,
    SafeRemoveColumn := SafeAddColumn,
    SafeAddIndex := SafeRemoveIndex,
    SafeRemoveIndex := SafeAddIndex,
    SafeAddForeignKey := SafeRemoveForeignKey,
    SafeRemoveForeignKey := SafeAddForeignKey,
    SafeAddColumnAndIndex := SafeRemoveColumnAndIndex,
    SafeRemoveColumnAndIndex := SafeAddColumnAndIndex,
    SafeChangeColumnNull := SafeChangeColumnNull,
    SafeRenameColumn := SafeRenameColumn,
    SafeAddReference := SafeRemoveReference,
    SafeAddCheckConstraint := SafeRemoveCheckConstraint
  ]

  /**
   * A Ruby value passed to a safe method: a symbol or string (table, column
   * and type names), a number, a boolean, `nil`, or an options hash.
   */
  datatype Arg =
    | Sym(name: string)
    | Str(text: string)
    | Int(number: int)
    | Bool(flag: bool)
    | Nil
    | Hash(options: Options)

  /** The column definitions a `create_table` block declares. */
  datatype Block = Block(columns: map<Name, Column>)

  /**
   * A recorded call: the method, its argument list and its block, kept as
   * the migration passed them.
   */
  datatype Command = Command(name: SafeMethod, args: seq<Arg>, block: Option<Block>)

  /** Element `i` of a multiple assignment from `args`: `nil` when the list is too short. */
  function At(args: seq<Arg>, i: nat): Arg {
    if i < |args| then args[i] else Nil
  }

  /** Ruby truthiness: everything but `nil` and `false` counts as true. */
  predicate Truthy(a: Arg) {
    a != Nil && a != Bool(false)
  }

  /** Ruby's `!` on any value. */
  function Not(a: Arg): (r: Arg)
    ensures r.Bool? && (Truthy(r) <==> !Truthy(a))
  {
    Bool(!Truthy(a))
  }

  /**
   * `inverse_of` on a recorded call: the two special cases, then the generic
   * entries of `SAFE_REVERSIBLE_MAP`, which pass the argument list and block
   * through untouched; a method with no entry is irreversible.
   */
  function Invert(c: Command): (r: Result<Command>)
    ensures r.Success? <==> c.name in ReversibleMap
    ensures r.Failure? ==> r.error == Irreversible(Symbol(c.name))
    ensures r.Success? ==> r.value.name == ReversibleMap[c.name]
    ensures r.Success? && c.name != SafeRenameColumn && c.name != SafeChangeColumnNull ==>
      r.value.args == c.args && r.value.block == c.block
  {
    match c.name
    case SafeRenameColumn =>
      Success(Command(SafeRenameColumn, [At(c.args, 0), At(c.args, 2), At(c.args, 1)], None))
    case SafeChangeColumnNull =>
      Success(Command(SafeChangeColumnNull, [At(c.args, 0), At(c.args, 1), Not(At(c.args, 2))], None))
    case _ =>
      if c.name in ReversibleMap then Success(Command(ReversibleMap[c.name], c.args, c.block))
      else Failure(Irreversible(Symbol(c.name)))
  }

  /** The add/remove pairs whose generic entries point at each other. */
  predicate PairedMethod(m: SafeMethod) {
    m in {SafeAddColumn, SafeRemoveColumn, SafeAddIndex, SafeRemoveIndex,
          SafeAddForeignKey, SafeRemoveForeignKey, SafeAddColumnAndIndex, SafeRemoveColumnAndIndex}
  }

  /** Methods whose inverse exists but is itself irreversible. */
  predicate OneWayMethod(m: SafeMethod) {
    m in {SafeCreateTable, SafeAddReference, SafeAddCheckConstraint}
  }

  /** Methods that have no inverse at all. */
  predicate IrreversibleMethod(m: SafeMethod) {
    m in {SafeChangeColumn, SafeDropTable, SafeRemoveReference, SafeRemoveCheckConstraint}
  }

  /** Every method of the map, on either side, is one of `SAFE_METHODS`; each is listed once. */
  lemma ReversibleMapWithinSafeMethods()
    ensures forall m | m in ReversibleMap :: m in SafeMethods && ReversibleMap[m] in SafeMethods
    ensures forall m: SafeMethod :: m in SafeMethods
    ensures forall i, j | 0 <= i < j < |SafeMethods| :: SafeMethods[i] != SafeMethods[j]
    ensures forall m, n | m != n :: Symbol(m) != Symbol(n)
  {
    forall m: SafeMethod ensures m in SafeMethods {
      match m
      case SafeCreateTable => assert SafeMethods[0] == m;
      case SafeDropTable => assert SafeMethods[1] == m;
      case SafeAddColumn => assert SafeMethods[2] == m;
      case SafeRemoveColumn => assert SafeMethods[3] == m;
      case SafeRenameColumn => assert SafeMethods[4] == m;
      case SafeAddIndex => assert SafeMethods[5] == m;
      case SafeRemoveIndex => assert SafeMethods[6] == m;
      case SafeAddForeignKey => assert SafeMethods[7] == m;
      case SafeRemoveForeignKey => assert SafeMethods[8] == m;
      case SafeAddColumnAndIndex => assert SafeMethods[9] == m;
      case SafeRemoveColumnAndIndex => assert SafeMethods[10] == m;
      case SafeChangeColumn => assert SafeMethods[11] == m;
      case SafeChangeColumnNull => assert SafeMethods[12] == m;
      case SafeAddReference => assert SafeMethods[13] == m;
      case SafeRemoveReference => assert SafeMethods[14] == m;
      case SafeAddCheckConstraint => assert SafeMethods[15] == m;
      case SafeRemoveCheckConstraint => assert SafeMethods[16] == m;
    }
  }

  /**
   * The paired, one-way and irreversible methods, with rename and
   * change-null, cover `SAFE_METHODS`, and no method is in two groups.
   */
  lemma MethodKindsPartition(m: SafeMethod)
    ensures PairedMethod(m) || OneWayMethod(m) || IrreversibleMethod(m)
      || m == SafeRenameColumn || m == SafeChangeColumnNull
    ensures !(PairedMethod(m) && OneWayMethod(m))
    ensures !(PairedMethod(m) && IrreversibleMethod(m))
    ensures !(OneWayMethod(m) && IrreversibleMethod(m))
    ensures (m == SafeRenameColumn || m == SafeChangeColumnNull) ==>
      !PairedMethod(m) && !OneWayMethod(m) && !IrreversibleMethod(m)
    ensures IrreversibleMethod(m) <==> m !in ReversibleMap
    ensures OneWayMethod(m) ==> m in ReversibleMap && ReversibleMap[m] !in ReversibleMap
  {
  }

  /** A call can be inverted exactly when its method is not one of the irreversible four. */
  lemma InvertFailsExactlyOnIrreversible(c: Command)
    ensures Invert(c).Failure? <==> IrreversibleMethod(c.name)
  {
  }

  /** The add/remove pairs are mutual inverses: inverting twice gives the call back. */
  lemma PairedInvertTwice(c: Command)
    requires PairedMethod(c.name)
    ensures Invert(c).Success?
    ensures Invert(Invert(c).value) == Success(c)
  {
  }

  /** Creating a table, a reference or a check constraint can be undone, but the undo cannot. */
  lemma OneWayInvertTwice(c: Command)
    requires OneWayMethod(c.name)
    ensures Invert(c).Success?
    ensures Invert(Invert(c).value).Failure?
  {
  }

  /** `invert_safe_rename_column` swaps the two column names and drops the block. */
  lemma InvertRenameSwaps(t: Arg, from: Arg, to: Arg, block: Option<Block>)
    ensures Invert(Command(SafeRenameColumn, [t, from, to], block))
         == Success(Command(SafeRenameColumn, [t, to, from], None))
  {
  }

  /**
   * Inverting a rename twice gives the call back exactly when it had three
   * arguments and no block: the destructuring pads with `nil` and drops extras.
   */
  lemma {:induction false} RenameInvertTwice(c: Command)
    requires c.name == SafeRenameColumn
    ensures Invert(Invert(c).value) == Success(c) <==> |c.args| == 3 && c.block == None
  {
    var twice := Invert(Invert(c).value).value;
    assert twice.args == [At(c.args, 0), At(c.args, 1), At(c.args, 2)];
    if |c.args| == 3 && c.block == None {
      assert twice.args == c.args;
    }
  }

  /** `invert_safe_change_column_null` negates the flag and drops the default and the block. */
  lemma InvertChangeColumnNullNegates(t: Arg, col: Arg, allowNull: bool, default: seq<Arg>, block: Option<Block>)
    requires |default| <= 1
    ensures Invert(Command(SafeChangeColumnNull, [t, col, Bool(allowNull)] + default, block))
         == Success(Command(SafeChangeColumnNull, [t, col, Bool(!allowNull)], None))
  {
  }

  /**
   * Inverting `safe_change_column_null` twice keeps the table and the column
   * and restores the flag's truth value, but a default argument is lost.
   */
  lemma {:induction false} ChangeColumnNullInvertTwice(c: Command)
    requires c.name == SafeChangeColumnNull
    ensures var twice := Invert(Invert(c).value).value;
      && twice.name == SafeChangeColumnNull
      && |twice.args| == 3
      && twice.args[0] == At(c.args, 0)
      && twice.args[1] == At(c.args, 1)
      && twice.args[2] == Bool(Truthy(At(c.args, 2)))
      && (|c.args| == 4 ==> twice != c)
  {
    var once := Invert(c).value;
    assert once.args == [At(c.args, 0), At(c.args, 1), Not(At(c.args, 2))];
    var twice := Invert(once).value;
    assert twice.args == [At(once.args, 0), At(once.args, 1), Not(At(once.args, 2))];
  }

  /**
   * The inversion a rollback of `safe_add_column_and_index` needs: the
   * removal takes `(table, column, column_options, index_options)`, so the
   * type recorded as the third argument is left out. Every other call is
   * inverted as `Invert` does.
   */
  function InvertCorrected(c: Command): (r: Result<Command>)
    ensures c.name != SafeAddColumnAndIndex ==> r == Invert(c)
    ensures c.name == SafeAddColumnAndIndex ==>
      && r.Success?
      && r.value.name == SafeRemoveColumnAndIndex
      && r.value.args == DropThird(c.args)
      && r.value.block == c.block
  {
    if c.name == SafeAddColumnAndIndex then
      Success(Command(SafeRemoveColumnAndIndex, DropThird(c.args), c.block))
    else Invert(c)
  }

  /** The argument list without its third element. */
  function DropThird(args: seq<Arg>): (r: seq<Arg>)
    ensures |args| >= 3 ==> |r| == |args| - 1 && r[..2] == args[..2] && r[2..] == args[3..]
    ensures |args| < 3 ==> r == args
  {
    if |args| < 3 then args else args[..2] + args[3..]
  }
}

=== FILE: database.dfy ===
/**
 * What each schema statement the safe operations issue does to the schema
 * once the database runs it. Each `requires` is what the database itself
 * insists on (it raises otherwise); the guards of the safe operations are
 * there to meet it.
 */
module Database {
  import opened Outcome
  import opened Schema

  /** `add_column`. */
  function AddColumn(s: State, t: Name, c: Name, col: Column): (r: State)
    requires TableExists(s, t) && !ColumnExists(s, t, c)
    ensures Valid(s) ==> Valid(r)
  {
    s.(columns := s.columns[(t, c) := col])
  }

  /** `remove_column`: the indexes on the column are dropped with it. */
  function RemoveColumn(s: State, t: Name, c: Name): (r: State)
    requires ColumnExists(s, t, c)
    ensures Valid(s) ==> Valid(r)
  {
    s.(columns := s.columns - {(t, c)},
       indexes := set i | i in s.indexes && !(i.table == t && i.column == c))
  }

  /** An index on column `from` of table `t` follows that column to its new name `to`. */
  function Rekey(i: Index, t: Name, from: Name, to: Name): Index {
    if i.table == t && i.column == from then i.(column := to) else i
  }

  /** `rename_column`: the column keeps its definition and its indexes. */
  function RenameColumn(s: State, t: Name, from: Name, to: Name): (r: State)
    requires ColumnExists(s, t, from) && !ColumnExists(s, t, to)
    ensures Valid(s) ==> Valid(r)
  {
    s.(columns := (s.columns - {(t, from)})[(t, to) := s.columns[(t, from)]],
       indexes := set i | i in s.indexes :: Rekey(i, t, from, to))
  }

  /** `add_index`: the indexed column must exist. */
  function AddIndex(s: State, i: Index): (r: State)
    requires ColumnExists(s, i.table, i.column) && i !in s.indexes
    ensures Valid(s) ==> Valid(r)
  {
    s.(indexes := s.indexes + {i})
  }

  /** `remove_index`. */
  function RemoveIndex(s: State, i: Index): (r: State)
    requires i in s.indexes
    ensures Valid(s) ==> Valid(r)
  {
    s.(indexes := s.indexes - {i})
  }

  /** `change_column`: a `null:` option sets nullability, otherwise it is kept. */
  function ChangeColumn(s: State, t: Name, c: Name, ty: ColumnType, opts: Options): (r: State)
    requires ColumnExists(s, t, c)
    ensures Valid(s) ==> Valid(r)
  {
    s.(columns := s.columns[(t, c) := Column(ty, opts.nullable.GetOr(s.columns[(t, c)].nullable))])
  }

  /** `change_column_null`: the default only back-fills rows, which are not modelled. */
  function ChangeColumnNull(s: State, t: Name, c: Name, allowNull: bool): (r: State)
    requires ColumnExists(s, t, c)
    ensures Valid(s) ==> Valid(r)
  {
    s.(columns := s.columns[(t, c) := s.columns[(t, c)].(nullable := allowNull)])
  }

  /** `create_table`: the table with the columns its definition block declares. */
  function CreateTable(s: State, t: Name, cols: map<Name, Column>): (r: State)
    requires !TableExists(s, t)
    ensures Valid(s) ==> Valid(r)
  {
    s.(tables := s.tables + {t},
       columns := s.columns + map c | c in cols :: (t, c) := cols[c])
  }

  /**
   * `drop_table` without `force: :cascade`: its columns, its indexes and its
   * own foreign keys go with it. The database refuses it while another
   * table's foreign key points at it.
   */
  function DropTable(s: State, t: Name): (r: State)
    requires TableExists(s, t) && !ReferencedByOther(s, t)
    ensures Valid(s) ==> Valid(r)
  {
    State(s.tables - {t},
          map k | k in s.columns && k.0 != t :: s.columns[k],
          set i | i in s.indexes && i.table != t,
          set k | k in s.foreignKeys && k.from != t && k.to != t)
  }

  /** `add_foreign_key`: both tables must exist. */
  function AddForeignKey(s: State, k: ForeignKey): (r: State)
    requires TableExists(s, k.from) && TableExists(s, k.to) && k !in s.foreignKeys
    ensures Valid(s) ==> Valid(r)
  {
    s.(foreignKeys := s.foreignKeys + {k})
  }

  /** `remove_foreign_key`. */
  function RemoveForeignKey(s: State, k: ForeignKey): (r: State)
    requires k in s.foreignKeys
    ensures Valid(s) ==> Valid(r)
  {
    s.(foreignKeys := s.foreignKeys - {k})
  }
}

=== FILE: migration_helper.dfy ===
/**
 * The guarded schema operations of `SafeMigrations::MigrationHelper`. Each
 * one asks the schema whether its target is already in place and issues the
 * underlying statement only when it is not; a skipped guard leaves the
 * schema exactly as it was.
 */
module MigrationHelper {
  import opened Outcome
  import opened Schema
  import Database

  /** `safe_add_column`: only an existing table that lacks the column gets it. */
  function SafeAddColumn(s: State, t: Name, c: Name, ty: ColumnType, opts: Options): (r: State)
    ensures !TableExists(s, t) || ColumnExists(s, t, c) ==> r == s
    ensures TableExists(s, t) && !ColumnExists(s, t, c) ==>
      && ColumnExists(r, t, c)
      && r.columns[(t, c)] == Column(ty, opts.nullable.GetOr(true))
      && r.columns - {(t, c)} == s.columns
      && OnlyColumnsDiffer(s, r)
    ensures Valid(s) ==> Valid(r)
  {
    if !TableExists(s, t) then s
    else if ColumnExists(s, t, c) then s
    else Database.AddColumn(s, t, c, Column(ty, opts.nullable.GetOr(true)))
  }

  /** `safe_remove_column`: acts only when both the table and the column exist. */
  function SafeRemoveColumn(s: State, t: Name, c: Name): (r: State)
    ensures !(TableExists(s, t) && ColumnExists(s, t, c)) ==> r == s
    ensures TableExists(s, t) && ColumnExists(s, t, c) ==>
      && !ColumnExists(r, t, c)
      && !Indexed(r, t, c)
      && r.columns == s.columns - {(t, c)}
      && (forall i :: i in r.indexes <==> i in s.indexes && !(i.table == t && i.column == c))
      && r.tables == s.tables && r.foreignKeys == s.foreignKeys
    ensures Valid(s) ==> Valid(r)
  {
    if TableExists(s, t) && ColumnExists(s, t, c) then Database.RemoveColumn(s, t, c) else s
  }

  /**
   * `safe_rename_column`: acts only when the old name exists and the new one
   * does not; the column keeps its definition under its new name.
   */
  function SafeRenameColumn(s: State, t: Name, from: Name, to: Name): (r: State)
    ensures !(ColumnExists(s, t, from) && !ColumnExists(s, t, to)) ==> r == s
    ensures ColumnExists(s, t, from) && !ColumnExists(s, t, to) ==>
      && ColumnExists(r, t, to)
      && !ColumnExists(r, t, from)
      && r.columns[(t, to)] == s.columns[(t, from)]
      && r.columns - {(t, to)} == s.columns - {(t, from)}
      && (forall o :: IndexExists(s, t, from, o) ==> IndexExists(r, t, to, o))
      && (forall i :: i in r.indexes <==>
            || (i in s.indexes && !(i.table == t && i.column == from))
            || (i.table == t && i.column == to && i.(column := from) in s.indexes))
      && r.tables == s.tables && r.foreignKeys == s.foreignKeys
    ensures Valid(s) ==> Valid(r)
  {
    if ColumnExists(s, t, from) && !ColumnExists(s, t, to) then Database.RenameColumn(s, t, from, to) else s
  }

  /**
   * `safe_add_index`: skipped when the table is missing or the same index is
   * already there; the database refuses an index on a missing column.
   */
  function SafeAddIndex(s: State, t: Name, c: Name, opts: Options): (r: Result<State>)
    ensures !TableExists(s, t) || IndexExists(s, t, c, opts) ==> r == Success(s)
    ensures TableExists(s, t) && !IndexExists(s, t, c, opts) && !ColumnExists(s, t, c) ==>
      r == Failure(MissingColumn(t, c))
    ensures TableExists(s, t) && !IndexExists(s, t, c, opts) && ColumnExists(s, t, c) ==>
      && r.Success?
      && r.value.indexes == s.indexes + {Index(t, c, opts)}
      && OnlyIndexesDiffer(s, r.value)
    ensures Valid(s) && r.Success? ==> Valid(r.value)
  {
    if !TableExists(s, t) then Success(s)
    else if IndexExists(s, t, c, opts) then Success(s)
    else if !ColumnExists(s, t, c) then Failure(MissingColumn(t, c))
    else Success(Database.AddIndex(s, Index(t, c, opts)))
  }

  /** `safe_remove_index`: acts only when a matching index exists. */
  function SafeRemoveIndex(s: State, t: Name, c: Name, opts: Options): (r: State)
    ensures !IndexExists(s, t, c, opts) ==> r == s
    ensures IndexExists(s, t, c, opts) ==>
      && !IndexExists(r, t, c, opts)
      && r.indexes + {Index(t, c, opts)} == s.indexes
      && OnlyIndexesDiffer(s, r)
    ensures Valid(s) ==> Valid(r)
  {
    if IndexExists(s, t, c, opts) then Database.RemoveIndex(s, Index(t, c, opts)) else s
  }

  /**
   * `safe_add_column_and_index`: the column first, then the index on it, so
   * the index never lacks its column and the pair never fails.
   */
  function SafeAddColumnAndIndex(s: State, t: Name, c: Name, ty: ColumnType, columnOpts: Options, indexOpts: Options): (r: Result<State>)
    ensures r.Success?
    ensures !TableExists(s, t) ==> r.value == s
    ensures TableExists(s, t) ==>
      && ColumnExists(r.value, t, c)
      && IndexExists(r.value, t, c, indexOpts)
      && r.value.tables == s.tables
      && r.value.foreignKeys == s.foreignKeys
      && r.value.columns - {(t, c)} == s.columns - {(t, c)}
      && r.value.indexes == s.indexes + {Index(t, c, indexOpts)}
    ensures TableExists(s, t) && !ColumnExists(s, t, c) ==>
      r.value.columns[(t, c)] == Column(ty, columnOpts.nullable.GetOr(true))
    ensures ColumnExists(s, t, c) ==> r.value.columns == s.columns
    ensures Valid(s) ==> Valid(r.value)
  {
    SafeAddIndex(SafeAddColumn(s, t, c, ty, columnOpts), t, c, indexOpts)
  }

  /**
   * `safe_remove_column_and_index`: the index first, then the column; on a
   * valid schema neither the column nor any index on it remains.
   */
  function SafeRemoveColumnAndIndex(s: State, t: Name, c: Name, indexOpts: Options): (r: State)
    ensures !IndexExists(r, t, c, indexOpts)
    ensures TableExists(s, t) && ColumnExists(s, t, c) ==> !ColumnExists(r, t, c) && !Indexed(r, t, c)
    ensures Valid(s) ==>
      && Valid(r)
      && !ColumnExists(r, t, c)
      && !Indexed(r, t, c)
      && r.columns == s.columns - {(t, c)}
      && (forall i :: i in r.indexes <==> i in s.indexes && !(i.table == t && i.column == c))
    ensures r.tables == s.tables && r.foreignKeys == s.foreignKeys
  {
    SafeRemoveColumn(SafeRemoveIndex(s, t, c, indexOpts), t, c)
  }

  /**
   * `safe_change_column`: alters an existing column, otherwise adds it; either
   * way the column has the given type afterwards. There is no table guard, so
   * adding to a missing table is refused by the database.
   */
  function SafeChangeColumn(s: State, t: Name, c: Name, ty: ColumnType, opts: Options): (r: Result<State>)
    ensures r.Failure? <==> !ColumnExists(s, t, c) && !TableExists(s, t)
    ensures r.Failure? ==> r.error == MissingTable(t)
    ensures r.Success? ==>
      && ColumnExists(r.value, t, c)
      && r.value.columns[(t, c)].ty == ty
      && r.value.columns - {(t, c)} == s.columns - {(t, c)}
      && OnlyColumnsDiffer(s, r.value)
    ensures r.Success? && ColumnExists(s, t, c) ==>
      r.value.columns[(t, c)].nullable == opts.nullable.GetOr(s.columns[(t, c)].nullable)
    ensures r.Success? && !ColumnExists(s, t, c) ==>
      r.value.columns[(t, c)].nullable == opts.nullable.GetOr(true)
    ensures Valid(s) && r.Success? ==> Valid(r.value)
  {
    if ColumnExists(s, t, c) then Success(Database.ChangeColumn(s, t, c, ty, opts))
    else if TableExists(s, t) then Success(Database.AddColumn(s, t, c, Column(ty, opts.nullable.GetOr(true))))
    else Failure(MissingTable(t))
  }

  /** `safe_change_column_null`: changes only an existing column's nullability. */
  function SafeChangeColumnNull(s: State, t: Name, c: Name, allowNull: bool): (r: State)
    ensures !ColumnExists(s, t, c) ==> r == s
    ensures ColumnExists(s, t, c) ==>
      && ColumnExists(r, t, c)
      && r.columns[(t, c)].nullable == allowNull
      && r.columns[(t, c)].ty == s.columns[(t, c)].ty
      && r.columns - {(t, c)} == s.columns - {(t, c)}
      && OnlyColumnsDiffer(s, r)
    ensures Valid(s) ==> Valid(r)
  {
    if ColumnExists(s, t, c) then Database.ChangeColumnNull(s, t, c, allowNull) else s
  }

  /** `safe_create_table`: skipped when the table exists. */
  function SafeCreateTable(s: State, t: Name, cols: map<Name, Column>): (r: State)
    ensures TableExists(s, t) ==> r == s
    ensures !TableExists(s, t) ==>
      && r.tables == s.tables + {t}
      && (forall c | c in cols :: ColumnExists(r, t, c) && r.columns[(t, c)] == cols[c])
      && (forall k | k in r.columns :: k in s.columns || (k.0 == t && k.1 in cols))
      && r.indexes == s.indexes && r.foreignKeys == s.foreignKeys
    ensures Valid(s) && !TableExists(s, t) ==>
      forall k | k in s.columns :: k in r.columns && r.columns[k] == s.columns[k]
    ensures Valid(s) ==> Valid(r)
  {
    if TableExists(s, t) then s else Database.CreateTable(s, t, cols)
  }

  /**
   * `safe_drop_table`: acts only when the table exists, and then nothing that
   * belonged to it survives. The drop carries no `force: :cascade`, so the
   * database refuses it while another table's foreign key points at it.
   */
  function SafeDropTable(s: State, t: Name): (r: Result<State>)
    ensures !TableExists(s, t) ==> r == Success(s)
    ensures TableExists(s, t) && ReferencedByOther(s, t) ==> r == Failure(ReferencedTable(t))
    ensures TableExists(s, t) && !ReferencedByOther(s, t) ==>
      && r.Success?
      && r.value.tables == s.tables - {t}
      && (forall k :: k in r.value.columns <==> k in s.columns && k.0 != t)
      && (forall k | k in r.value.columns :: r.value.columns[k] == s.columns[k])
      && (forall i :: i in r.value.indexes <==> i in s.indexes && i.table != t)
      && (forall k :: k in r.value.foreignKeys <==> k in s.foreignKeys && k.from != t)
      && (forall k | k in r.value.foreignKeys :: k.to != t)
    ensures Valid(s) && r.Success? ==> Valid(r.value)
  {
    if !TableExists(s, t) then Success(s)
    else if ReferencedByOther(s, t) then Failure(ReferencedTable(t))
    else Success(Database.DropTable(s, t))
  }

  /** `safe_add_foreign_key`: both tables must exist and no matching key. */
  function SafeAddForeignKey(s: State, from: Name, to: Name, opts: Options): (r: State)
    ensures !(TableExists(s, from) && TableExists(s, to)) || ForeignKeyExists(s, from, to, opts) ==> r == s
    ensures TableExists(s, from) && TableExists(s, to) && !ForeignKeyExists(s, from, to, opts) ==>
      && ForeignKeyExists(r, from, to, opts)
      && r.foreignKeys - {ForeignKey(from, to, opts)} == s.foreignKeys
      && OnlyForeignKeysDiffer(s, r)
    ensures Valid(s) ==> Valid(r)
  {
    if !(TableExists(s, from) && TableExists(s, to)) then s
    else if ForeignKeyExists(s, from, to, opts) then s
    else Database.AddForeignKey(s, ForeignKey(from, to, opts))
  }

  /** `safe_remove_foreign_key`: both tables must exist and a matching key. */
  function SafeRemoveForeignKey(s: State, from: Name, to: Name, opts: Options): (r: State)
    ensures !(TableExists(s, from) && TableExists(s, to) && ForeignKeyExists(s, from, to, opts)) ==> r == s
    ensures TableExists(s, from) && TableExists(s, to) && ForeignKeyExists(s, from, to, opts) ==>
      && !ForeignKeyExists(r, from, to, opts)
      && r.foreignKeys + {ForeignKey(from, to, opts)} == s.foreignKeys
      && OnlyForeignKeysDiffer(s, r)
    ensures Valid(s) ==> Valid(r)
  {
    if TableExists(s, from) && TableExists(s, to) && ForeignKeyExists(s, from, to, opts) then
      Database.RemoveForeignKey(s, ForeignKey(from, to, opts))
    else s
  }

  /**
   * One call of a safe operation with its arguments, as the migration author
   * writes it. Arguments the operation receives but does not act on (the type
   * and options of a removed column, a column's options on
   * `safe_remove_column_and_index`, the default of `safe_change_column_null`,
   * the options of `safe_create_table` and `safe_drop_table`) are not kept.
   */
  datatype SafeOp =
    | CreateTable(table: Name, columns: map<Name, Column>)
    | DropTable(table: Name)
    | AddColumn(table: Name, column: Name, ty: ColumnType, options: Options)
    | RemoveColumn(table: Name, column: Name)
    | RenameColumn(table: Name, column: Name, newColumn: Name)
    | AddIndex(table: Name, column: Name, options: Options)
    | RemoveIndex(table: Name, column: Name, options: Options)
    | AddForeignKey(from: Name, to: Name, options: Options)
    | RemoveForeignKey(from: Name, to: Name, options: Options)
    | AddColumnAndIndex(table: Name, column: Name, ty: ColumnType, columnOptions: Options, indexOptions: Options)
    | RemoveColumnAndIndex(table: Name, column: Name, indexOptions: Options)
    | ChangeColumn(table: Name, column: Name, ty: ColumnType, options: Options)
    | ChangeColumnNull(table: Name, column: Name, allowNull: bool)

  /** Runs one safe operation against the schema. */
  function Apply(s: State, op: SafeOp): (r: Result<State>)
    ensures Valid(s) && r.Success? ==> Valid(r.value)
    ensures r.Failure? ==> op.AddIndex? || op.ChangeColumn? || op.DropTable?
  {
    match op
    case CreateTable(t, cols) => Success(SafeCreateTable(s, t, cols))
    case DropTable(t) => SafeDropTable(s, t)
    case AddColumn(t, c, ty, o) => Success(SafeAddColumn(s, t, c, ty, o))
    case RemoveColumn(t, c) => Success(SafeRemoveColumn(s, t, c))
    case RenameColumn(t, c, n) => Success(SafeRenameColumn(s, t, c, n))
    case AddIndex(t, c, o) => SafeAddIndex(s, t, c, o)
    case RemoveIndex(t, c, o) => Success(SafeRemoveIndex(s, t, c, o))
    case AddForeignKey(f, t, o) => Success(SafeAddForeignKey(s, f, t, o))
    case RemoveForeignKey(f, t, o) => Success(SafeRemoveForeignKey(s, f, t, o))
    case AddColumnAndIndex(t, c, ty, co, io) => SafeAddColumnAndIndex(s, t, c, ty, co, io)
    case RemoveColumnAndIndex(t, c, io) => Success(SafeRemoveColumnAndIndex(s, t, c, io))
    case ChangeColumn(t, c, ty, o) => SafeChangeColumn(s, t, c, ty, o)
    case ChangeColumnNull(t, c, n) => Success(SafeChangeColumnNull(s, t, c, n))
  }

  // Idempotence: a second identical call finds its target in place.

  lemma SafeAddColumnIdempotent(s: State, t: Name, c: Name, ty: ColumnType, opts: Options)
    ensures var r := SafeAddColumn(s, t, c, ty, opts); SafeAddColumn(r, t, c, ty, opts) == r
  {
  }

  lemma SafeRemoveColumnIdempotent(s: State, t: Name, c: Name)
    ensures var r := SafeRemoveColumn(s, t, c); SafeRemoveColumn(r, t, c) == r
  {
  }

  lemma SafeRenameColumnIdempotent(s: State, t: Name, from: Name, to: Name)
    ensures var r := SafeRenameColumn(s, t, from, to); SafeRenameColumn(r, t, from, to) == r
  {
  }

  lemma SafeAddIndexIdempotent(s: State, t: Name, c: Name, opts: Options)
    ensures SafeAddIndex(s, t, c, opts).Success? ==>
      var r := SafeAddIndex(s, t, c, opts).value; SafeAddIndex(r, t, c, opts) == Success(r)
  {
  }

  lemma SafeRemoveIndexIdempotent(s: State, t: Name, c: Name, opts: Options)
    ensures var r := SafeRemoveIndex(s, t, c, opts); SafeRemoveIndex(r, t, c, opts) == r
  {
  }

  lemma SafeChangeColumnIdempotent(s: State, t: Name, c: Name, ty: ColumnType, opts: Options)
    ensures SafeChangeColumn(s, t, c, ty, opts).Success? ==>
      var r := SafeChangeColumn(s, t, c, ty, opts).value; SafeChangeColumn(r, t, c, ty, opts) == Success(r)
  {
    if SafeChangeColumn(s, t, c, ty, opts).Success? {
      var r := SafeChangeColumn(s, t, c, ty, opts).value;
      var again := SafeChangeColumn(r, t, c, ty, opts).value;
      assert again.columns == r.columns;
    }
  }

  lemma SafeChangeColumnNullIdempotent(s: State, t: Name, c: Name, allowNull: bool)
    ensures var r := SafeChangeColumnNull(s, t, c, allowNull); SafeChangeColumnNull(r, t, c, allowNull) == r
  {
  }

  lemma SafeCreateTableIdempotent(s: State, t: Name, cols: map<Name, Column>)
    ensures var r := SafeCreateTable(s, t, cols); SafeCreateTable(r, t, cols) == r
  {
  }

  lemma SafeDropTableIdempotent(s: State, t: Name)
    ensures SafeDropTable(s, t).Success? ==>
      var r := SafeDropTable(s, t).value; SafeDropTable(r, t) == Success(r)
  {
  }

  lemma SafeForeignKeyIdempotent(s: State, from: Name, to: Name, opts: Options)
    ensures var r := SafeAddForeignKey(s, from, to, opts); SafeAddForeignKey(r, from, to, opts) == r
    ensures var r := SafeRemoveForeignKey(s, from, to, opts); SafeRemoveForeignKey(r, from, to, opts) == r
  {
  }

  /**
   * The idempotence every safe operation promises: once a call succeeded,
   * repeating it changes nothing and does not fail.
   */
  lemma ApplyIdempotent(s: State, op: SafeOp)
    ensures Apply(s, op).Success? ==> Apply(Apply(s, op).value, op) == Apply(s, op)
  {
    match op
    case CreateTable(t, cols) => SafeCreateTableIdempotent(s, t, cols);
    case DropTable(t) => SafeDropTableIdempotent(s, t);
    case AddColumn(t, c, ty, o) => SafeAddColumnIdempotent(s, t, c, ty, o);
    case RemoveColumn(t, c) => SafeRemoveColumnIdempotent(s, t, c);
    case RenameColumn(t, c, n) => SafeRenameColumnIdempotent(s, t, c, n);
    case AddIndex(t, c, o) => SafeAddIndexIdempotent(s, t, c, o);
    case RemoveIndex(t, c, o) => SafeRemoveIndexIdempotent(s, t, c, o);
    case AddForeignKey(f, t, o) => SafeForeignKeyIdempotent(s, f, t, o);
    case RemoveForeignKey(f, t, o) => SafeForeignKeyIdempotent(s, f, t, o);
    case AddColumnAndIndex(t, c, ty, co, io) =>
    case RemoveColumnAndIndex(t, c, io) =>
    case ChangeColumn(t, c, ty, o) => SafeChangeColumnIdempotent(s, t, c, ty, o);
    case ChangeColumnNull(t, c, n) => SafeChangeColumnNullIdempotent(s, t, c, n);
  }

  // Round trips: on a valid schema, an operation that acted is undone by its
  // partner.

  lemma AddThenRemoveColumn(s: State, t: Name, c: Name, ty: ColumnType, opts: Options)
    requires Valid(s) && TableExists(s, t) && !ColumnExists(s, t, c)
    ensures SafeRemoveColumn(SafeAddColumn(s, t, c, ty, opts), t, c) == s
  {
    var r := SafeRemoveColumn(SafeAddColumn(s, t, c, ty, opts), t, c);
    assert r.indexes == s.indexes;
  }

  lemma AddThenRemoveIndex(s: State, t: Name, c: Name, opts: Options)
    requires TableExists(s, t) && ColumnExists(s, t, c) && !IndexExists(s, t, c, opts)
    ensures SafeAddIndex(s, t, c, opts).Success?
    ensures SafeRemoveIndex(SafeAddIndex(s, t, c, opts).value, t, c, opts) == s
  {
  }

  lemma RenameThenRenameBack(s: State, t: Name, from: Name, to: Name)
    requires Valid(s) && ColumnExists(s, t, from) && !ColumnExists(s, t, to)
    ensures SafeRenameColumn(SafeRenameColumn(s, t, from, to), t, to, from) == s
  {
    var r := SafeRenameColumn(s, t, from, to);
    var back := SafeRenameColumn(r, t, to, from);
    assert back.columns == s.columns;
    forall i | i in s.indexes ensures i in back.indexes {
      assert Database.Rekey(Database.Rekey(i, t, from, to), t, to, from) == i;
    }
    assert back.indexes == s.indexes;
  }

  lemma ChangeColumnNullThenBack(s: State, t: Name, c: Name, allowNull: bool)
    requires ColumnExists(s, t, c) && s.columns[(t, c)].nullable == !allowNull
    ensures SafeChangeColumnNull(SafeChangeColumnNull(s, t, c, allowNull), t, c, !allowNull) == s
  {
    var r := SafeChangeColumnNull(SafeChangeColumnNull(s, t, c, allowNull), t, c, !allowNull);
    assert r.columns == s.columns;
  }

  lemma CreateThenDropTable(s: State, t: Name, cols: map<Name, Column>)
    requires Valid(s) && !TableExists(s, t)
    ensures SafeDropTable(SafeCreateTable(s, t, cols), t) == Success(s)
  {
    var created := SafeCreateTable(s, t, cols);
    assert !ReferencedByOther(created, t);
    var r := SafeDropTable(created, t).value;
    assert r.columns == s.columns;
    assert r.indexes == s.indexes;
    assert r.foreignKeys == s.foreignKeys;
  }

  lemma AddThenRemoveForeignKey(s: State, from: Name, to: Name, opts: Options)
    requires TableExists(s, from) && TableExists(s, to) && !ForeignKeyExists(s, from, to, opts)
    ensures SafeRemoveForeignKey(SafeAddForeignKey(s, from, to, opts), from, to, opts) == s
  {
  }

  lemma AddThenRemoveColumnAndIndex(s: State, t: Name, c: Name, ty: ColumnType, columnOpts: Options, indexOpts: Options)
    requires Valid(s) && TableExists(s, t) && !ColumnExists(s, t, c)
    ensures SafeRemoveColumnAndIndex(SafeAddColumnAndIndex(s, t, c, ty, columnOpts, indexOpts).value, t, c, indexOpts) == s
  {
    var r := SafeRemoveColumnAndIndex(SafeAddColumnAndIndex(s, t, c, ty, columnOpts, indexOpts).value, t, c, indexOpts);
    assert r.indexes == s.indexes;
  }
}

=== FILE: migrator.dfy ===
/**
 * How the host framework runs a migration made of safe calls: forward, each
 * call in order; backward, every recorded call inverted first and the
 * inverses replayed last to first. A recorded call reaches its safe method
 * through Ruby's argument passing, modelled by `Decode`.
 */
module Migrator {
  import opened Outcome
  import opened Schema
  import opened CommandRecorder
  import MigrationHelper

  type SafeOp = MigrationHelper.SafeOp

  /** A table, column or type name: Ruby accepts a symbol or a string. */
  predicate IsName(a: Arg) {
    a.Sym? || a.Str?
  }

  function NameOf(a: Arg): Name
    requires IsName(a)
  {
    if a.Sym? then a.name else a.text
  }

  /**
   * A trailing options hash is taken to have been written as keywords, so
   * it binds to the method's keyword parameters.
   */
  predicate HasKeywords(args: seq<Arg>) {
    |args| > 0 && args[|args| - 1].Hash?
  }

  /** The positional arguments: everything before a trailing keyword hash. */
  function Positional(args: seq<Arg>): seq<Arg> {
    if HasKeywords(args) then args[..|args| - 1] else args
  }

  /** The keyword arguments, none when there is no trailing hash. */
  function Keywords(args: seq<Arg>): Options {
    if HasKeywords(args) then args[|args| - 1].options else NoOptions
  }

  /**
   * A positional options hash that the method splats with `**`: an absent
   * one defaults to `{}`, anything but a hash raises.
   */
  function HashAt(args: seq<Arg>, i: nat): Option<Options> {
    if i >= |args| then Some(NoOptions)
    else if args[i].Hash? then Some(args[i].options)
    else None
  }

  function BlockColumns(block: Option<Block>): map<Name, Column> {
    match block
    case Some(b) => b.columns
    case None => map[]
  }

  /** The safe methods the recorder knows but the helper does not define. */
  predicate Undefined(m: SafeMethod) {
    m in {SafeAddReference, SafeRemoveReference, SafeAddCheckConstraint, SafeRemoveCheckConstraint}
  }

  /**
   * Replaying a recorded call binds its arguments to the safe method's
   * parameters. A wrong count raises before the method runs; an argument
   * that is not a name where a name or type is expected is refused too.
   */
  function Decode(c: Command): (r: Result<SafeOp>)
    ensures Undefined(c.name) <==> r == Failure(UndefinedMethod(Symbol(c.name)))
    ensures r.Failure? ==> r.error.UndefinedMethod? || r.error.BadArguments? || r.error.Unsupported?
  {
    var bad := Failure(BadArguments(Symbol(c.name)));
    var pos := Positional(c.args);
    var kw := Keywords(c.args);
    match c.name
    case SafeCreateTable =>
      if |pos| == 1 && IsName(pos[0]) then
        Success(MigrationHelper.CreateTable(NameOf(pos[0]), BlockColumns(c.block)))
      else bad
    case SafeDropTable =>
      if |pos| == 1 && IsName(pos[0]) then Success(MigrationHelper.DropTable(NameOf(pos[0]))) else bad
    case SafeAddColumn =>
      if |pos| == 3 && IsName(pos[0]) && IsName(pos[1]) && IsName(pos[2]) then
        Success(MigrationHelper.AddColumn(NameOf(pos[0]), NameOf(pos[1]), NameOf(pos[2]), kw))
      else bad
    case SafeRemoveColumn =>
      if 2 <= |pos| <= 3 && IsName(pos[0]) && IsName(pos[1]) && (|pos| == 2 || IsName(pos[2]) || pos[2] == Nil) then
        Success(MigrationHelper.RemoveColumn(NameOf(pos[0]), NameOf(pos[1])))
      else bad
    case SafeRenameColumn =>
      if |c.args| == 3 && IsName(c.args[0]) && IsName(c.args[1]) && IsName(c.args[2]) then
        Success(MigrationHelper.RenameColumn(NameOf(c.args[0]), NameOf(c.args[1]), NameOf(c.args[2])))
      else bad
    case SafeAddIndex =>
      if |pos| == 2 && IsName(pos[0]) && IsName(pos[1]) then
        Success(MigrationHelper.AddIndex(NameOf(pos[0]), NameOf(pos[1]), kw))
      else bad
    case SafeRemoveIndex =>
      if |pos| == 2 && IsName(pos[0]) && IsName(pos[1]) then
        Success(MigrationHelper.RemoveIndex(NameOf(pos[0]), NameOf(pos[1]), kw))
      else if 1 <= |pos| <= 2 && IsName(pos[0]) && At(pos, 1) == Nil then
        Failure(Unsupported(Symbol(c.name)))
      else bad
    case SafeAddForeignKey =>
      if |pos| == 2 && IsName(pos[0]) && IsName(pos[1]) then
        Success(MigrationHelper.AddForeignKey(NameOf(pos[0]), NameOf(pos[1]), kw))
      else bad
    case SafeRemoveForeignKey =>
      if |pos| == 2 && IsName(pos[0]) && IsName(pos[1]) then
        Success(MigrationHelper.RemoveForeignKey(NameOf(pos[0]), NameOf(pos[1]), kw))
      else bad
    case SafeAddColumnAndIndex =>
      var a := c.args;
      if 3 <= |a| <= 5 && IsName(a[0]) && IsName(a[1]) && IsName(a[2]) && HashAt(a, 3).Some? && HashAt(a, 4).Some? then
        Success(MigrationHelper.AddColumnAndIndex(NameOf(a[0]), NameOf(a[1]), NameOf(a[2]), HashAt(a, 3).value, HashAt(a, 4).value))
      else bad
    case SafeRemoveColumnAndIndex =>
      var a := c.args;
      if 2 <= |a| <= 4 && IsName(a[0]) && IsName(a[1]) && HashAt(a, 2).Some? && HashAt(a, 3).Some? then
        Success(MigrationHelper.RemoveColumnAndIndex(NameOf(a[0]), NameOf(a[1]), HashAt(a, 3).value))
      else bad
    case SafeChangeColumn =>
      if |pos| == 3 && IsName(pos[0]) && IsName(pos[1]) && IsName(pos[2]) then
        Success(MigrationHelper.ChangeColumn(NameOf(pos[0]), NameOf(pos[1]), NameOf(pos[2]), kw))
      else bad
    case SafeChangeColumnNull =>
      var a := c.args;
      if 3 <= |a| <= 4 && IsName(a[0]) && IsName(a[1]) then
        Success(MigrationHelper.ChangeColumnNull(NameOf(a[0]), NameOf(a[1]), Truthy(a[2])))
      else bad
    case _ => Failure(UndefinedMethod(Symbol(c.name)))
  }

  /** Options as trailing keyword arguments: nothing is passed for none. */
  function KeywordTail(o: Options): seq<Arg> {
    if o == NoOptions then [] else [Hash(o)]
  }

  /** The call a migration author writes for an operation, as the recorder stores it. */
  function Encode(op: SafeOp): Command {
    match op
    case CreateTable(t, cols) => Command(SafeCreateTable, [Sym(t)], Some(Block(cols)))
    case DropTable(t) => Command(SafeDropTable, [Sym(t)], None)
    case AddColumn(t, c, ty, o) => Command(SafeAddColumn, [Sym(t), Sym(c), Sym(ty)] + KeywordTail(o), None)
    case RemoveColumn(t, c) => Command(SafeRemoveColumn, [Sym(t), Sym(c)], None)
    case RenameColumn(t, c, n) => Command(SafeRenameColumn, [Sym(t), Sym(c), Sym(n)], None)
    case AddIndex(t, c, o) => Command(SafeAddIndex, [Sym(t), Sym(c)] + KeywordTail(o), None)
    case RemoveIndex(t, c, o) => Command(SafeRemoveIndex, [Sym(t), Sym(c)] + KeywordTail(o), None)
    case AddForeignKey(f, t, o) => Command(SafeAddForeignKey, [Sym(f), Sym(t)] + KeywordTail(o), None)
    case RemoveForeignKey(f, t, o) => Command(SafeRemoveForeignKey, [Sym(f), Sym(t)] + KeywordTail(o), None)
    case AddColumnAndIndex(t, c, ty, co, io) =>
      var tail := if io != NoOptions then [Hash(co), Hash(io)] else KeywordTail(co);
      Command(SafeAddColumnAndIndex, [Sym(t), Sym(c), Sym(ty)] + tail, None)
    case RemoveColumnAndIndex(t, c, io) =>
      var tail := if io != NoOptions then [Hash(NoOptions), Hash(io)] else [];
      Command(SafeRemoveColumnAndIndex, [Sym(t), Sym(c)] + tail, None)
    case ChangeColumn(t, c, ty, o) => Command(SafeChangeColumn, [Sym(t), Sym(c), Sym(ty)] + KeywordTail(o), None)
    case ChangeColumnNull(t, c, n) => Command(SafeChangeColumnNull, [Sym(t), Sym(c), Bool(n)], None)
  }

  /** Replaying the recorded call of an operation runs that very operation. */
  lemma {:induction false} DecodeEncode(op: SafeOp)
    ensures Decode(Encode(op)) == Success(op)
  {
    match op
    case CreateTable(t, cols) => DecodeEncodeCreateTable(t, cols);
    case DropTable(t) => DecodeEncodeDropTable(t);
    case AddColumn(t, c, ty, o) => DecodeEncodeAddColumn(t, c, ty, o);
    case RemoveColumn(t, c) => DecodeEncodeRemoveColumn(t, c);
    case RenameColumn(t, c, n) => DecodeEncodeRenameColumn(t, c, n);
    case AddIndex(t, c, o) => DecodeEncodeAddIndex(t, c, o);
    case RemoveIndex(t, c, o) => DecodeEncodeRemoveIndex(t, c, o);
    case AddForeignKey(f, t, o) => DecodeEncodeAddForeignKey(f, t, o);
    case RemoveForeignKey(f, t, o) => DecodeEncodeRemoveForeignKey(f, t, o);
    case AddColumnAndIndex(t, c, ty, co, io) => DecodeEncodeAddColumnAndIndex(t, c, ty, co, io);
    case RemoveColumnAndIndex(t, c, io) => DecodeEncodeRemoveColumnAndIndex(t, c, io);
    case ChangeColumn(t, c, ty, o) => DecodeEncodeChangeColumn(t, c, ty, o);
    case ChangeColumnNull(t, c, n) => DecodeEncodeChangeColumnNull(t, c, n);
  }

  lemma {:induction false} DecodeEncodeCreateTable(t: Name, cols: map<Name, Column>)
    ensures var op := MigrationHelper.CreateTable(t, cols);
      Decode(Encode(op)) == Success(op)
  {
  }

  lemma {:induction false} DecodeEncodeDropTable(t: Name)
    ensures var op := MigrationHelper.DropTable(t);
      Decode(Encode(op)) == Success(op)
  {
  }

  lemma {:induction false} DecodeEncodeAddColumn(t: Name, c: Name, ty: ColumnType, o: Options)
    ensures var op := MigrationHelper.AddColumn(t, c, ty, o);
      Decode(Encode(op)) == Success(op)
  {
  }

  lemma {:induction false} DecodeEncodeRemoveColumn(t: Name, c: Name)
    ensures var op := MigrationHelper.RemoveColumn(t, c);
      Decode(Encode(op)) == Success(op)
  {
  }

  lemma {:induction false} DecodeEncodeRenameColumn(t: Name, c: Name, n: Name)
    ensures var op := MigrationHelper.RenameColumn(t, c, n);
      Decode(Encode(op)) == Success(op)
  {
  }

  lemma {:induction false} DecodeEncodeAddIndex(t: Name, c: Name, o: Options)
    ensures var op := MigrationHelper.AddIndex(t, c, o);
      Decode(Encode(op)) == Success(op)
  {
  }

  lemma {:induction false} DecodeEncodeRemoveIndex(t: Name, c: Name, o: Options)
    ensures var op := MigrationHelper.RemoveIndex(t, c, o);
      Decode(Encode(op)) == Success(op)
  {
  }

  lemma {:induction false} DecodeEncodeAddForeignKey(f: Name, t: Name, o: Options)
    ensures var op := MigrationHelper.AddForeignKey(f, t, o);
      Decode(Encode(op)) == Success(op)
  {
  }

  lemma {:induction false} DecodeEncodeRemoveForeignKey(f: Name, t: Name, o: Options)
    ensures var op := MigrationHelper.RemoveForeignKey(f, t, o);
      Decode(Encode(op)) == Success(op)
  {
  }

  lemma {:induction false} DecodeEncodeChangeColumn(t: Name, c: Name, ty: ColumnType, o: Options)
    ensures var op := MigrationHelper.ChangeColumn(t, c, ty, o);
      Decode(Encode(op)) == Success(op)
  {
  }

  lemma {:induction false} DecodeEncodeChangeColumnNull(t: Name, c: Name, n: bool)
    ensures var op := MigrationHelper.ChangeColumnNull(t, c, n);
      Decode(Encode(op)) == Success(op)
  {
  }

  lemma {:induction false} DecodeEncodeAddColumnAndIndex(t: Name, c: Name, ty: ColumnType, co: Options, io: Options)
    ensures var op := MigrationHelper.AddColumnAndIndex(t, c, ty, co, io);
      Decode(Encode(op)) == Success(op)
  {
    var a := Encode(MigrationHelper.AddColumnAndIndex(t, c, ty, co, io)).args;
    if io != NoOptions {
      assert a == [Sym(t), Sym(c), Sym(ty), Hash(co), Hash(io)];
    } else if co != NoOptions {
      assert a == [Sym(t), Sym(c), Sym(ty), Hash(co)];
    } else {
      assert a == [Sym(t), Sym(c), Sym(ty)];
    }
  }

  lemma {:induction false} DecodeEncodeRemoveColumnAndIndex(t: Name, c: Name, io: Options)
    ensures var op := MigrationHelper.RemoveColumnAndIndex(t, c, io);
      Decode(Encode(op)) == Success(op)
  {
    var a := Encode(MigrationHelper.RemoveColumnAndIndex(t, c, io)).args;
    if io != NoOptions {
      assert a == [Sym(t), Sym(c), Hash(NoOptions), Hash(io)];
    } else {
      assert a == [Sym(t), Sym(c)];
    }
  }

  /** Replays one recorded call against the schema. */
  function Execute(c: Command, s: State): (r: Result<State>)
    ensures Valid(s) && r.Success? ==> Valid(r.value)
  {
    match Decode(c)
    case Failure(e) => Failure(e)
    case Success(op) => MigrationHelper.Apply(s, op)
  }

  /** Runs the calls in order; the first failure stops the run. */
  function Run(cmds: seq<Command>, s: State): (r: Result<State>)
    ensures Valid(s) && r.Success? ==> Valid(r.value)
    ensures r.Failure? ==> exists i | 0 <= i < |cmds| :: Decode(cmds[i]).Failure? || Decode(cmds[i]).value.AddIndex? || Decode(cmds[i]).value.ChangeColumn? || Decode(cmds[i]).value.DropTable?
    decreases |cmds|
  {
    if cmds == [] then Success(s)
    else
      match Execute(cmds[0], s)
      case Failure(e) => Failure(e)
      case Success(s1) =>
        var r := Run(cmds[1..], s1);
        assert r.Failure? ==> exists i | 1 <= i < |cmds| :: Decode(cmds[i]).Failure? || Decode(cmds[i]).value.AddIndex? || Decode(cmds[i]).value.ChangeColumn? || Decode(cmds[i]).value.DropTable? by {
          if r.Failure? {
            var j :| 0 <= j < |cmds[1..]| && (Decode(cmds[1..][j]).Failure? || Decode(cmds[1..][j]).value.AddIndex? || Decode(cmds[1..][j]).value.ChangeColumn? || Decode(cmds[1..][j]).value.DropTable?);
            assert cmds[1..][j] == cmds[j + 1];
          }
        }
        r
  }

  /** Inverts every call, in order; the first irreversible call stops it. */
  function InvertAll(invert: Command -> Result<Command>, cmds: seq<Command>): (r: Result<seq<Command>>)
    ensures r.Success? <==> forall i | 0 <= i < |cmds| :: invert(cmds[i]).Success?
    ensures r.Success? ==> |r.value| == |cmds| && forall i | 0 <= i < |cmds| :: invert(cmds[i]) == Success(r.value[i])
    decreases |cmds|
  {
    if cmds == [] then Success([])
    else
      match invert(cmds[0])
      case Failure(e) => Failure(e)
      case Success(c0) =>
        match InvertAll(invert, cmds[1..])
        case Failure(e) =>
          assert exists i | 0 <= i < |cmds| :: invert(cmds[i]).Failure? by {
            var j :| 0 <= j < |cmds[1..]| && invert(cmds[1..][j]).Failure?;
            assert cmds[1..][j] == cmds[j + 1];
          }
          Failure(e)
        case Success(rest) =>
          assert forall i | 1 <= i < |cmds| :: invert(cmds[i]) == Success(rest[i - 1]) by {
            forall i | 1 <= i < |cmds| ensures invert(cmds[i]) == Success(rest[i - 1]) {
              assert cmds[1..][i - 1] == cmds[i];
            }
          }
          Success([c0] + rest)
  }

  function Reverse<T>(xs: seq<T>): (r: seq<T>)
    ensures |r| == |xs|
    ensures forall i | 0 <= i < |xs| :: r[i] == xs[|xs| - 1 - i]
  {
    if xs == [] then [] else Reverse(xs[1..]) + [xs[0]]
  }

  /**
   * The down direction: every recorded call is inverted before anything is
   * replayed, so an irreversible call stops the rollback before any
   * statement runs; then the inverses run last call first. The inverse of a
   * call is derived from its arguments alone, whether or not the call acted
   * on the way up.
   */
  function RollbackWith(invert: Command -> Result<Command>, cmds: seq<Command>, s: State): (r: Result<State>)
    ensures Valid(s) && r.Success? ==> Valid(r.value)
    ensures (exists i | 0 <= i < |cmds| :: invert(cmds[i]).Failure?) ==> r.Failure?
  {
    match InvertAll(invert, cmds)
    case Failure(e) => Failure(e)
    case Success(inverses) => Run(Reverse(inverses), s)
  }

  /** Rollback with the recorder's inversion table as written. */
  function RollbackAsWritten(cmds: seq<Command>, s: State): Result<State> {
    RollbackWith(Invert, cmds, s)
  }

  /** Rollback with the inversion of `safe_add_column_and_index` corrected. */
  function Rollback(cmds: seq<Command>, s: State): Result<State> {
    RollbackWith(InvertCorrected, cmds, s)
  }

  lemma {:induction false} RunSingle(c: Command, s: State)
    ensures Run([c], s) == Execute(c, s)
  {
    assert [c][1..] == [];
  }

  lemma {:induction false} RollbackSingle(invert: Command -> Result<Command>, c: Command, s: State)
    ensures invert(c).Failure? ==> RollbackWith(invert, [c], s) == Failure(invert(c).error)
    ensures invert(c).Success? ==> RollbackWith(invert, [c], s) == Execute(invert(c).value, s)
  {
    assert [c][1..] == [];
    assert InvertAll(invert, [c][1..]) == Success([]);
    if invert(c).Success? {
      var u := invert(c).value;
      assert [u] + [] == [u];
      assert InvertAll(invert, [c]) == Success([u]);
      assert Reverse([u]) == [u];
      RunSingle(u, s);
    }
  }

  /** Running `a + b` is running `a`, then `b` on its result. */
  lemma {:induction false} RunAppend(a: seq<Command>, b: seq<Command>, s: State)
    ensures Run(a + b, s) == match Run(a, s) case Failure(e) => Failure(e) case Success(s1) => Run(b, s1)
    decreases |a|
  {
    if a == [] {
      assert a + b == b;
    } else {
      assert (a + b)[0] == a[0];
      assert (a + b)[1..] == a[1..] + b;
      match Execute(a[0], s)
      case Failure(e) =>
      case Success(s1) => RunAppend(a[1..], b, s1);
    }
  }

  /** An irreversible call makes the rollback fail the same way whatever the schema. */
  lemma {:induction false} IrreversibleRollbackTouchesNothing(cmds: seq<Command>, s: State, s': State)
    requires exists i | 0 <= i < |cmds| :: IrreversibleMethod(cmds[i].name)
    ensures Rollback(cmds, s).Failure?
    ensures Rollback(cmds, s) == Rollback(cmds, s')
  {
    var i :| 0 <= i < |cmds| && IrreversibleMethod(cmds[i].name);
    InvertFailsExactlyOnIrreversible(cmds[i]);
  }

  /** Away from `safe_add_column_and_index`, the correction changes no rollback. */
  lemma {:induction false} CorrectionOnlyTouchesColumnAndIndex(cmds: seq<Command>, s: State)
    requires forall i | 0 <= i < |cmds| :: cmds[i].name != SafeAddColumnAndIndex
    ensures Rollback(cmds, s) == RollbackAsWritten(cmds, s)
  {
    InvertAllAgree(cmds);
  }

  lemma {:induction false} InvertAllAgree(cmds: seq<Command>)
    requires forall i | 0 <= i < |cmds| :: cmds[i].name != SafeAddColumnAndIndex
    ensures InvertAll(InvertCorrected, cmds) == InvertAll(Invert, cmds)
    decreases |cmds|
  {
    if cmds != [] {
      InvertAllAgree(cmds[1..]);
    }
  }

  /** The operations whose recorded call the rollback can turn into a working undo. */
  predicate Reversible(op: SafeOp) {
    || op.CreateTable? || op.AddColumn? || op.AddIndex? || op.AddForeignKey?
    || op.RenameColumn? || op.ChangeColumnNull? || op.AddColumnAndIndex?
  }

  /** The operation that undoes `op`, as an operation. */
  function Undo(op: SafeOp): SafeOp
    requires Reversible(op)
  {
    match op
    case CreateTable(t, _) => MigrationHelper.DropTable(t)
    case AddColumn(t, c, _, _) => MigrationHelper.RemoveColumn(t, c)
    case AddIndex(t, c, o) => MigrationHelper.RemoveIndex(t, c, o)
    case AddForeignKey(f, t, o) => MigrationHelper.RemoveForeignKey(f, t, o)
    case RenameColumn(t, c, n) => MigrationHelper.RenameColumn(t, n, c)
    case ChangeColumnNull(t, c, n) => MigrationHelper.ChangeColumnNull(t, c, !n)
    case AddColumnAndIndex(t, c, _, _, io) => MigrationHelper.RemoveColumnAndIndex(t, c, io)
  }

  /**
   * Inverting the recorded call of a reversible operation and replaying it
   * runs exactly the operation's undo.
   */
  lemma {:induction false} InvertedCallRunsUndo(op: SafeOp)
    requires Reversible(op)
    ensures InvertCorrected(Encode(op)).Success?
    ensures Decode(InvertCorrected(Encode(op)).value) == Success(Undo(op))
  {
    match op
    case CreateTable(t, cols) => InvertedCallRunsUndoCreateTable(t, cols);
    case AddColumn(t, col, ty, o) => InvertedCallRunsUndoAddColumn(t, col, ty, o);
    case AddIndex(t, col, o) => InvertedCallRunsUndoAddIndex(t, col, o);
    case AddForeignKey(f, t, o) => InvertedCallRunsUndoAddForeignKey(f, t, o);
    case RenameColumn(t, from, to) => InvertedCallRunsUndoRenameColumn(t, from, to);
    case ChangeColumnNull(t, col, n) => InvertedCallRunsUndoChangeColumnNull(t, col, n);
    case AddColumnAndIndex(t, col, ty, co, io) => InvertedCallRunsUndoAddColumnAndIndex(t, col, ty, co, io);
  }

  lemma {:induction false} InvertedCallRunsUndoCreateTable(t: Name, cols: map<Name, Column>)
    ensures var op := MigrationHelper.CreateTable(t, cols);
      && Reversible(op)
      && InvertCorrected(Encode(op)).Success?
      && Decode(InvertCorrected(Encode(op)).value) == Success(Undo(op))
  {
    var op := MigrationHelper.CreateTable(t, cols);
  }

  lemma {:induction false} InvertedCallRunsUndoAddColumn(t: Name, col: Name, ty: ColumnType, o: Options)
    ensures var op := MigrationHelper.AddColumn(t, col, ty, o);
      && Reversible(op)
      && InvertCorrected(Encode(op)).Success?
      && Decode(InvertCorrected(Encode(op)).value) == Success(Undo(op))
  {
    var op := MigrationHelper.AddColumn(t, col, ty, o);
    var args := [Sym(t), Sym(col), Sym(ty)] + KeywordTail(o);
    assert Encode(op) == Command(SafeAddColumn, args, None);
    assert InvertCorrected(Encode(op)) == Success(Command(SafeRemoveColumn, args, None));
    assert Positional(args) == [Sym(t), Sym(col), Sym(ty)];
  }

  lemma {:induction false} InvertedCallRunsUndoAddIndex(t: Name, col: Name, o: Options)
    ensures var op := MigrationHelper.AddIndex(t, col, o);
      && Reversible(op)
      && InvertCorrected(Encode(op)).Success?
      && Decode(InvertCorrected(Encode(op)).value) == Success(Undo(op))
  {
    var op := MigrationHelper.AddIndex(t, col, o);
  }

  lemma {:induction false} InvertedCallRunsUndoAddForeignKey(f: Name, t: Name, o: Options)
    ensures var op := MigrationHelper.AddForeignKey(f, t, o);
      && Reversible(op)
      && InvertCorrected(Encode(op)).Success?
      && Decode(InvertCorrected(Encode(op)).value) == Success(Undo(op))
  {
    var op := MigrationHelper.AddForeignKey(f, t, o);
  }

  lemma {:induction false} InvertedCallRunsUndoRenameColumn(t: Name, from: Name, to: Name)
    ensures var op := MigrationHelper.RenameColumn(t, from, to);
      && Reversible(op)
      && InvertCorrected(Encode(op)).Success?
      && Decode(InvertCorrected(Encode(op)).value) == Success(Undo(op))
  {
    var op := MigrationHelper.RenameColumn(t, from, to);
  }

  lemma {:induction false} InvertedCallRunsUndoChangeColumnNull(t: Name, col: Name, n: bool)
    ensures var op := MigrationHelper.ChangeColumnNull(t, col, n);
      && Reversible(op)
      && InvertCorrected(Encode(op)).Success?
      && Decode(InvertCorrected(Encode(op)).value) == Success(Undo(op))
  {
    var op := MigrationHelper.ChangeColumnNull(t, col, n);
  }

  lemma {:induction false} InvertedCallRunsUndoAddColumnAndIndex(t: Name, col: Name, ty: ColumnType, co: Options, io: Options)
    ensures var op := MigrationHelper.AddColumnAndIndex(t, col, ty, co, io);
      && Reversible(op)
      && InvertCorrected(Encode(op)).Success?
      && Decode(InvertCorrected(Encode(op)).value) == Success(Undo(op))
  {
    var op := MigrationHelper.AddColumnAndIndex(t, col, ty, co, io);
    var c := Encode(op);
    var undo := InvertCorrected(c).value;
    if io != NoOptions {
      assert c.args == [Sym(t), Sym(col), Sym(ty), Hash(co), Hash(io)];
      assert undo.args == [Sym(t), Sym(col), Hash(co), Hash(io)];
    } else if co != NoOptions {
      assert c.args == [Sym(t), Sym(col), Sym(ty), Hash(co)];
      assert undo.args == [Sym(t), Sym(col), Hash(co)];
    } else {
      assert c.args == [Sym(t), Sym(col), Sym(ty)];
      assert undo.args == [Sym(t), Sym(col)];
    }
  }

  /**
   * An operation acts on the way up when its guard passes and what it adds is
   * not there yet.
   */
  predicate ActsOnTheWayUp(s: State, op: SafeOp) {
    match op
    case CreateTable(t, _) => !TableExists(s, t)
    case AddColumn(t, c, _, _) => TableExists(s, t) && !ColumnExists(s, t, c)
    case AddIndex(t, c, o) => TableExists(s, t) && ColumnExists(s, t, c) && !IndexExists(s, t, c, o)
    case AddForeignKey(f, t, o) => TableExists(s, f) && TableExists(s, t) && !ForeignKeyExists(s, f, t, o)
    case RenameColumn(t, c, n) => ColumnExists(s, t, c) && !ColumnExists(s, t, n)
    case ChangeColumnNull(t, c, n) => ColumnExists(s, t, c) && s.columns[(t, c)].nullable == !n
    case AddColumnAndIndex(t, c, _, _, _) => TableExists(s, t) && !ColumnExists(s, t, c)
    case _ => false
  }

  /** On the schema level: an operation that acted is undone by its undo. */
  lemma {:induction false} UndoRestores(s: State, op: SafeOp)
    requires Valid(s) && ActsOnTheWayUp(s, op)
    ensures Reversible(op)
    ensures MigrationHelper.Apply(s, op).Success?
    ensures MigrationHelper.Apply(MigrationHelper.Apply(s, op).value, Undo(op)) == Success(s)
  {
    match op
    case CreateTable(t, cols) => MigrationHelper.CreateThenDropTable(s, t, cols);
    case AddColumn(t, c, ty, o) => MigrationHelper.AddThenRemoveColumn(s, t, c, ty, o);
    case AddIndex(t, c, o) => MigrationHelper.AddThenRemoveIndex(s, t, c, o);
    case AddForeignKey(f, t, o) => MigrationHelper.AddThenRemoveForeignKey(s, f, t, o);
    case RenameColumn(t, from, to) => MigrationHelper.RenameThenRenameBack(s, t, from, to);
    case ChangeColumnNull(t, c, n) => MigrationHelper.ChangeColumnNullThenBack(s, t, c, n);
    case AddColumnAndIndex(t, c, ty, co, io) => MigrationHelper.AddThenRemoveColumnAndIndex(s, t, c, ty, co, io);
  }

  /**
   * Rollback symmetry: when a reversible call acted on the way up, rolling it
   * back restores the schema exactly.
   */
  lemma {:induction false} UpThenDownRestores(s: State, op: SafeOp)
    requires Valid(s) && ActsOnTheWayUp(s, op)
    ensures Run([Encode(op)], s).Success?
    ensures Rollback([Encode(op)], Run([Encode(op)], s).value) == Success(s)
  {
    var c := Encode(op);
    UndoRestores(s, op);
    DecodeEncode(op);
    RunSingle(c, s);
    var s1 := Run([c], s).value;
    InvertedCallRunsUndo(op);
    RollbackSingle(InvertCorrected, c, s1);
  }

  /**
   * The corrected inverse of any `safe_add_column_and_index` call whose
   * arguments bind, however they were written, binds to the removal of the
   * same column with the same index options.
   */
  lemma {:induction false} InvertCorrectedUndoesColumnAndIndex(c: Command, t: Name, col: Name, ty: ColumnType, co: Options, io: Options)
    requires Decode(c) == Success(MigrationHelper.AddColumnAndIndex(t, col, ty, co, io))
    ensures InvertCorrected(c).Success?
    ensures Decode(InvertCorrected(c).value) == Success(MigrationHelper.RemoveColumnAndIndex(t, col, io))
  {
    assert c.name == SafeAddColumnAndIndex;
    var a := c.args;
    var d := InvertCorrected(c).value.args;
    assert d == a[..2] + a[3..];
    assert d[0] == a[0] && d[1] == a[1];
    assert HashAt(d, 2) == HashAt(a, 3);
    assert HashAt(d, 3) == HashAt(a, 4);
  }

  /**
   * As written, the inverse of `safe_add_column_and_index` hands the column
   * type to `safe_remove_column_and_index` as its column options (or one
   * argument too many), so rolling back any call of it whose arguments bind
   * fails.
   */
  lemma {:induction false} AddColumnAndIndexRollbackAsWrittenFails(c: Command, s: State, t: Name, col: Name, ty: ColumnType, co: Options, io: Options)
    requires Decode(c) == Success(MigrationHelper.AddColumnAndIndex(t, col, ty, co, io))
    ensures RollbackAsWritten([c], s) == Failure(BadArguments("safe_remove_column_and_index"))
  {
    assert c.name == SafeAddColumnAndIndex;
    RollbackSingle(Invert, c, s);
    var undo := Invert(c).value;
    assert undo.args == c.args;
    assert IsName(undo.args[2]);
  }

  /** The migration of spec/safe_migrations_spec.rb: a `users` table, an `email` column, a unique index. */
  const Users: Name := "users"
  const Email: Name := "email"
  const Unique: Options := Options(None, map["unique" := "true"])

  const UsersMigration: seq<Command> := [
    Command(SafeCreateTable, [Sym(Users)], Some(Block(map["name" := Column("string", true)]))),
    Command(SafeAddColumn, [Sym(Users), Sym(Email), Sym("string")], None),
    Command(SafeAddIndex, [Sym(Users), Sym(Email), Hash(Unique)], None)
  ]

  /** The steps of `UsersMigration` as safe operations. */
  lemma {:induction false} UsersMigrationSteps(s: State)
    ensures Run(UsersMigration, s) ==
      MigrationHelper.SafeAddIndex(
        MigrationHelper.SafeAddColumn(
          MigrationHelper.SafeCreateTable(s, Users, map["name" := Column("string", true)]),
          Users, Email, "string", NoOptions),
        Users, Email, Unique)
  {
    var m := UsersMigration;
    assert [m[0], m[1], m[2]] == m;
    RunThree(m[0], m[1], m[2], s);
    var s1 := MigrationHelper.SafeCreateTable(s, Users, map["name" := Column("string", true)]);
    var s2 := MigrationHelper.SafeAddColumn(s1, Users, Email, "string", NoOptions);
    UsersCreateExecutes(s);
    UsersAddColumnExecutes(s1);
    UsersAddIndexExecutes(s2);
  }

  lemma {:induction false} UsersCreateExecutes(s: State)
    ensures Execute(UsersMigration[0], s) == Success(MigrationHelper.SafeCreateTable(s, Users, map["name" := Column("string", true)]))
  {
    assert Decode(UsersMigration[0]) == Success(MigrationHelper.CreateTable(Users, map["name" := Column("string", true)]));
  }

  lemma {:induction false} UsersAddColumnExecutes(s: State)
    ensures Execute(UsersMigration[1], s) == Success(MigrationHelper.SafeAddColumn(s, Users, Email, "string", NoOptions))
  {
    assert Decode(UsersMigration[1]) == Success(MigrationHelper.AddColumn(Users, Email, "string", NoOptions));
  }

  lemma {:induction false} UsersAddIndexExecutes(s: State)
    ensures Execute(UsersMigration[2], s) == MigrationHelper.SafeAddIndex(s, Users, Email, Unique)
  {
    assert Positional(UsersMigration[2].args) == [Sym(Users), Sym(Email)];
    assert Decode(UsersMigration[2]) == Success(MigrationHelper.AddIndex(Users, Email, Unique));
  }

  /** The calls the rollback of `UsersMigration` replays, in replay order. */
  const UsersRollback: seq<Command> := [
    Command(SafeRemoveIndex, [Sym(Users), Sym(Email), Hash(Unique)], None),
    Command(SafeRemoveColumn, [Sym(Users), Sym(Email), Sym("string")], None),
    Command(SafeDropTable, [Sym(Users)], Some(Block(map["name" := Column("string", true)])))
  ]

  lemma {:induction false} UsersInvertEach()
    ensures InvertCorrected(UsersMigration[0]) == Success(UsersRollback[2])
    ensures InvertCorrected(UsersMigration[1]) == Success(UsersRollback[1])
    ensures InvertCorrected(UsersMigration[2]) == Success(UsersRollback[0])
  {
  }

  lemma {:induction false} UsersInverses()
    ensures InvertAll(InvertCorrected, UsersMigration).Success?
    ensures Reverse(InvertAll(InvertCorrected, UsersMigration).value) == UsersRollback
  {
    var m := UsersMigration;
    UsersInvertEach();
    var inv := InvertAll(InvertCorrected, m);
    assert inv.Success?;
    var down := Reverse(inv.value);
    assert |down| == 3;
    assert down == UsersRollback;
  }

  /** Running three calls is executing them one after another. */
  lemma {:induction false} RunThree(a: Command, b: Command, c: Command, s: State)
    ensures Run([a, b, c], s) ==
      match Execute(a, s)
      case Failure(e) => Failure(e)
      case Success(s1) =>
        match Execute(b, s1)
        case Failure(e) => Failure(e)
        case Success(s2) => Execute(c, s2)
  {
    assert [a, b, c] == [a] + [b] + [c];
    RunAppend([a] + [b], [c], s);
    RunAppend([a], [b], s);
    RunSingle(a, s);
    match Execute(a, s)
    case Failure(_) =>
    case Success(s1) =>
      RunSingle(b, s1);
      match Execute(b, s1)
      case Failure(_) =>
      case Success(s2) => RunSingle(c, s2);
  }

  lemma {:induction false} UsersRollbackExecutes(s: State)
    ensures Execute(UsersRollback[0], s) == Success(MigrationHelper.SafeRemoveIndex(s, Users, Email, Unique))
    ensures Execute(UsersRollback[1], s) == Success(MigrationHelper.SafeRemoveColumn(s, Users, Email))
    ensures Execute(UsersRollback[2], s) == MigrationHelper.SafeDropTable(s, Users)
  {
    assert Positional(UsersRollback[0].args) == [Sym(Users), Sym(Email)];
  }

  /** Rolling `UsersMigration` back removes the index, then the column, then drops the table. */
  lemma {:induction false} UsersRollbackSteps(s: State)
    ensures Rollback(UsersMigration, s) ==
      MigrationHelper.SafeDropTable(
        MigrationHelper.SafeRemoveColumn(
          MigrationHelper.SafeRemoveIndex(s, Users, Email, Unique),
          Users, Email),
        Users)
  {
    UsersInverses();
    var down := UsersRollback;
    assert [down[0], down[1], down[2]] == down;
    RunThree(down[0], down[1], down[2], s);
    var s1 := MigrationHelper.SafeRemoveIndex(s, Users, Email, Unique);
    var s2 := MigrationHelper.SafeRemoveColumn(s1, Users, Email);
    UsersRollbackExecutes(s);
    UsersRollbackExecutes(s1);
    UsersRollbackExecutes(s2);
  }

  /** The create step: `users` exists afterwards, with `name` exactly when the table is new. */
  lemma {:induction false} UsersCreateStep(s: State)
    requires Valid(s)
    ensures var s1 := MigrationHelper.SafeCreateTable(s, Users, map["name" := Column("string", true)]);
      && Valid(s1)
      && TableExists(s1, Users)
      && ColumnExists(s1, Users, "name") == (ColumnExists(s, Users, "name") || !TableExists(s, Users))
      && ColumnExists(s1, Users, Email) == ColumnExists(s, Users, Email)
      && (forall c | ColumnExists(s, Users, c) :: ColumnExists(s1, Users, c))
  {
    var s1 := MigrationHelper.SafeCreateTable(s, Users, map["name" := Column("string", true)]);
    if !TableExists(s, Users) {
      assert (Users, Email) !in s.columns;
      assert (Users, Email) !in s1.columns;
    }
  }

  /** What the migration leaves in place, whatever the schema held before. */
  lemma {:induction false} UsersMigrationUp(s: State)
    requires Valid(s)
    ensures Run(UsersMigration, s).Success?
    ensures var up := Run(UsersMigration, s).value;
      && Valid(up)
      && TableExists(up, Users)
      && ColumnExists(up, Users, "name") == (ColumnExists(s, Users, "name") || !TableExists(s, Users))
      && ColumnExists(up, Users, Email)
      && IndexExists(up, Users, Email, Unique)
      && (forall c | ColumnExists(s, Users, c) :: ColumnExists(up, Users, c))
      && up.foreignKeys == s.foreignKeys
  {
    UsersMigrationSteps(s);
    UsersCreateStep(s);
    var s1 := MigrationHelper.SafeCreateTable(s, Users, map["name" := Column("string", true)]);
    var s2 := MigrationHelper.SafeAddColumn(s1, Users, Email, "string", NoOptions);
    assert ColumnExists(s2, Users, Email);
    assert forall c | ColumnExists(s1, Users, c) :: ColumnExists(s2, Users, c);
  }

  /** Running the migration on its own result changes nothing. */
  lemma {:induction false} UsersMigrationAgain(up: State)
    requires TableExists(up, Users) && ColumnExists(up, Users, Email) && IndexExists(up, Users, Email, Unique)
    ensures Run(UsersMigration, up) == Success(up)
  {
    UsersMigrationSteps(up);
  }

  /** Rolling the migration back drops `users` and every column it has. */
  lemma {:induction false} UsersMigrationDown(up: State)
    requires Valid(up)
    ensures Rollback(UsersMigration, up).Failure? <==> TableExists(up, Users) && ReferencedByOther(up, Users)
    ensures Rollback(UsersMigration, up).Failure? ==> Rollback(UsersMigration, up).error == ReferencedTable(Users)
    ensures Rollback(UsersMigration, up).Success? ==>
      && !TableExists(Rollback(UsersMigration, up).value, Users)
      && (forall c :: !ColumnExists(Rollback(UsersMigration, up).value, Users, c))
  {
    UsersRollbackSteps(up);
    var s1 := MigrationHelper.SafeRemoveIndex(up, Users, Email, Unique);
    var s2 := MigrationHelper.SafeRemoveColumn(s1, Users, Email);
    assert Valid(s2);
    assert s2.tables == up.tables && s2.foreignKeys == up.foreignKeys;
    assert ReferencedByOther(s2, Users) == ReferencedByOther(up, Users);
    var r := MigrationHelper.SafeDropTable(s2, Users);
    if r.Success? {
      assert !TableExists(r.value, Users);
      assert Valid(r.value);
    }
  }

  /**
   * Whatever the schema held before: the migration leaves the table, both
   * columns and the index in place; running it again changes nothing; and
   * rolling it back drops `users` with every column it had, including columns
   * the migration never created. The rollback fails only when another
   * table's foreign key points at `users`.
   */
  lemma {:induction false} UsersMigrationUpAgainDown(s: State)
    requires Valid(s)
    ensures Run(UsersMigration, s).Success?
    ensures var up := Run(UsersMigration, s).value;
      && TableExists(up, Users)
      && ColumnExists(up, Users, "name") == (ColumnExists(s, Users, "name") || !TableExists(s, Users))
      && ColumnExists(up, Users, Email)
      && IndexExists(up, Users, Email, Unique)
      && (forall c | ColumnExists(s, Users, c) :: ColumnExists(up, Users, c))
      && Run(UsersMigration, up) == Success(up)
      && (Rollback(UsersMigration, up).Success? <==> !ReferencedByOther(s, Users))
      && (Rollback(UsersMigration, up).Success? ==>
            && !TableExists(Rollback(UsersMigration, up).value, Users)
            && (forall c :: !ColumnExists(Rollback(UsersMigration, up).value, Users, c)))
  {
    UsersMigrationUp(s);
    var up := Run(UsersMigration, s).value;
    UsersMigrationAgain(up);
    UsersMigrationDown(up);
  }

  /**
   * On a schema without `users`, up then down is the identity: what the
   * migration created is exactly what the rollback removes.
   */
  /** The correction leaves the test migration alone: it has no `safe_add_column_and_index`. */
  lemma {:induction false} UsersRollbackAsWritten(s: State)
    ensures RollbackAsWritten(UsersMigration, s) == Rollback(UsersMigration, s)
  {
    CorrectionOnlyTouchesColumnAndIndex(UsersMigration, s);
  }

  lemma {:induction false} UsersMigrationFreshRoundTrip(s: State)
    requires Valid(s) && !TableExists(s, Users)
    ensures Run(UsersMigration, s).Success?
    ensures Rollback(UsersMigration, Run(UsersMigration, s).value) == Success(s)
  {
    UsersMigrationSteps(s);
    var cols := map["name" := Column("string", true)];
    var s1 := MigrationHelper.SafeCreateTable(s, Users, cols);
    var s2 := MigrationHelper.SafeAddColumn(s1, Users, Email, "string", NoOptions);
    assert !ColumnExists(s1, Users, Email);
    var s3 := MigrationHelper.SafeAddIndex(s2, Users, Email, Unique).value;
    UsersRollbackSteps(s3);
    MigrationHelper.AddThenRemoveIndex(s2, Users, Email, Unique);
    MigrationHelper.AddThenRemoveColumn(s1, Users, Email, "string", NoOptions);
    MigrationHelper.CreateThenDropTable(s, Users, cols);
  }

  /**
   * The documented hazard: when `users` already exists, the create step is
   * skipped, yet rolling back still drops the table it did not create. Only
   * a foreign key of another table pointing at it stops the drop.
   */
  lemma {:induction false} SkippedCreateStillDropsOnRollback(s: State, t: Name, cols: map<Name, Column>)
    requires TableExists(s, t)
    ensures Run([Encode(MigrationHelper.CreateTable(t, cols))], s) == Success(s)
    ensures Rollback([Encode(MigrationHelper.CreateTable(t, cols))], s).Success? <==> !ReferencedByOther(s, t)
    ensures Rollback([Encode(MigrationHelper.CreateTable(t, cols))], s).Success? ==>
      !TableExists(Rollback([Encode(MigrationHelper.CreateTable(t, cols))], s).value, t)
  {
    var c := Encode(MigrationHelper.CreateTable(t, cols));
    DecodeEncode(MigrationHelper.CreateTable(t, cols));
    RunSingle(c, s);
    RollbackSingle(InvertCorrected, c, s);
  }
}

=== FILE: outcome.dfy ===
/**
 * Option and Result values shared by every module of the model, and the
 * errors a migration step can end in.
 */
module Outcome {

  datatype Option<+T> = None | Some(value: T) {

    /** The value held, or `default` when there is none. */
    function GetOr(default: T): T {
      match this
      case Some(v) => v
      case None => default
    }
  }

  /**
   * Why a step did not produce a schema: the database refused a statement
   * (a missing table or column, or a table another table's foreign key
   * still points at),
   * a recorded command has no inverse, or its arguments do not fit the
   * method they are replayed into.
   */
  datatype Error =
    | MissingTable(table: string)
    | MissingColumn(table: string, column: string)
    | ReferencedTable(table: string)
    | Irreversible(command: string)
    | BadArguments(command: string)
    | UndefinedMethod(command: string)
    | Unsupported(command: string)

  datatype Result<+T> = Success(value: T) | Failure(error: Error)
}

=== FILE: schema.dfy ===
/**
 * The database schema a migration inspects and changes, reduced to what the
 * safe operations look at: which tables exist, which columns (with type and
 * nullability), which indexes and which foreign keys.
 */
module Schema {
  import opened Outcome

  type Name = string

  /** A column type as written in a migration (`:string`, `:integer`, ...). */
  type ColumnType = string

  /**
   * The options hash of a schema statement. Only `null:` (the `nullable`
   * field) has a meaning of its own here, a column's nullability; every
   * other option is kept opaque and is part of the identity of an index or a
   * foreign key.
   */
  datatype Options = Options(nullable: Option<bool>, rest: map<string, string>)

  const NoOptions: Options := Options(None, map[])

  datatype Column = Column(ty: ColumnType, nullable: bool)

  datatype Index = Index(table: Name, column: Name, options: Options)

  datatype ForeignKey = ForeignKey(from: Name, to: Name, options: Options)

  datatype State = State(
    tables: set<Name>,
    columns: map<(Name, Name), Column>,
    indexes: set<Index>,
    foreignKeys: set<ForeignKey>)

  // The introspection queries the safe operations guard on.

  predicate TableExists(s: State, t: Name) {
    t in s.tables
  }

  predicate ColumnExists(s: State, t: Name, c: Name) {
    (t, c) in s.columns
  }

  predicate IndexExists(s: State, t: Name, c: Name, o: Options) {
    Index(t, c, o) in s.indexes
  }

  predicate ForeignKeyExists(s: State, from: Name, to: Name, o: Options) {
    ForeignKey(from, to, o) in s.foreignKeys
  }

  /** Some index, whatever its options, covers column `c` of table `t`. */
  predicate Indexed(s: State, t: Name, c: Name) {
    exists i :: i in s.indexes && i.table == t && i.column == c
  }

  /** A foreign key of another table points at table `t`. */
  predicate ReferencedByOther(s: State, t: Name) {
    exists k :: k in s.foreignKeys && k.to == t && k.from != t
  }

  /**
   * A schema a database can hold: every column belongs to an existing table,
   * every index to an existing column, every foreign key joins two existing
   * tables.
   */
  predicate Valid(s: State) {
    && (forall k | k in s.columns :: k.0 in s.tables)
    && (forall i | i in s.indexes :: (i.table, i.column) in s.columns)
    && (forall k | k in s.foreignKeys :: k.from in s.tables && k.to in s.tables)
  }

  // Frame conditions: which parts of the schema a step may touch.

  predicate OnlyColumnsDiffer(s: State, r: State) {
    r.tables == s.tables && r.indexes == s.indexes && r.foreignKeys == s.foreignKeys
  }

  predicate OnlyIndexesDiffer(s: State, r: State) {
    r.tables == s.tables && r.columns == s.columns && r.foreignKeys == s.foreignKeys
  }

  predicate OnlyForeignKeysDiffer(s: State, r: State) {
    r.tables == s.tables && r.columns == s.columns && r.indexes == s.indexes
  }
}
